=== FILE: README.md ===
# AquaBot core, modelled in Dafny

AquaBot is a Discord bot. This project models three of its parts and proves properties of them.

- **`bot/utils.py`** (`utils.dfy`, module `Utils`):
  - `truncate`;
  - the author-only interaction gate (`AuthorOnlyView.interaction_check`);
  - the paginator. `PaginatorView` has five button handlers that move a page counter, relabel the page sign, edit the message and stop the view. `Paginator` sends the first page.

  The view is a class whose fields the handlers update in place. Each handler's method is proved equal to a pure transition function (`Press`, and `Dispatch` with the gate in front). The properties are proved about that function.
- **`bot/ext/maths.py`** (`maths.dfy`, module `Maths`):
  - the linear-equation keypad (`LinearUI`) and the equation buffer that `CalcButton.callback` edits;
  - `solve_lineareq_2`. It strips whitespace, matches `y=mx±b` with the pattern `[-+]?\d+\.?\d*` for each number, solves for x exactly over the reals, and lays out four lines of working.
- **`bot/ext/graphs.py`** (`graphs.dfy`, module `Graphs`):
  - `data_check`, and the guard the plotting commands put in front of it;
  - the string rewriting at the start of `equation_`. Spaces are deleted. A `*` is inserted before an `x` that follows a digit, an `x` or `)`, and between `)` and `(`.

Two support modules back these:

- `wrappers.dfy`: `Option` and `Result`.
- `text.dfy`: ASCII digits, decimal rendering of integers, and splitting and joining lines.

The right arrow's bound at bot/utils.py:132 lets the page counter move one past the last page. This is modelled as written, and the bound that stops on the last page is modelled beside it (see Findings).

A button that the message on screen shows disabled cannot be clicked, so the platform never delivers a press of it to the view. `Dispatch` models this as the `Unclickable` outcome.

## Model

| member | source | states |
|---|---|---|
| Utils.Truncate | bot/utils.py:62-66 | content within the limit is returned unchanged; longer content becomes its first 1997 characters (all of it when shorter) followed by "..." |
| Utils.TruncateDefaultFits | bot/utils.py:62-66 | with the default limit of 2000 the result always fits; over-long content becomes exactly 2000 characters that start with its first 1997 |
| Utils.TruncateOverrunsSmallLimit | bot/utils.py:62-66 | a limit of 100 on 150 characters yields 153 characters: more than the limit and more than the input |
| Utils.TruncateWithin | bot/utils.py:62-66 | intended truncation: the result never exceeds the limit; longer content keeps limit-3 characters plus "..." |
| Utils.TruncateWithinAgreesAtDefault | bot/utils.py:62-66 | at the default limit the intended and the written truncation agree on every input |
| Utils.InteractionCheck | bot/utils.py:77-82 | the event is allowed iff the actor is the author; otherwise the notice names the author's mention |
| Utils.WithPageLabel | bot/utils.py:92-93 | only the third component changes, and its label becomes "Page counter+1" |
| Utils.PageLabelsDistinct | bot/utils.py:92-93 | different counters give different page signs |
| Utils.PyIndex | bot/utils.py:144-147 | Python indexing: defined exactly for -len <= i < len, and the element found is s[i], or s[len+i] for a negative index |
| Utils.Press | bot/utils.py:95-158 | the handlers keep the six components well formed; the view stops exactly when stop is pressed on a real page; a handler either completes or ends in an IndexError |
| Utils.Dispatch | bot/utils.py:77-158 | a stranger's event never changes the view, and only the author's stop can stop it |
| Utils.StartEstablishesInv | bot/utils.py:86-90 | a new view over non-empty pages, before and after the first page is sent, satisfies the invariant: the sign matches the counter, the counter lies in 0..len, and the page shown is the counter's |
| Utils.DisableButtons | bot/utils.py:154-156 | every button is disabled with its emoji and label kept, every other item is kept, and the number of items is unchanged |
| Utils.EditTo | bot/utils.py:102 | editing the message to a page shows that page with the view's current components, and changes nothing else of the view; a page that does not exist leaves the view as it was and ends the handler with the outcome that handler gives an IndexError, swallowed or raised |
| Utils.PressPreservesInv | bot/utils.py:95-158 | every handler preserves that invariant |
| Utils.DispatchPreservesInv | bot/utils.py:77-158 | the gate followed by any handler preserves that invariant |
| Utils.GateDecides | bot/utils.py:77-82 | a stopped view does not route the event; a button shown disabled cannot be pressed; otherwise an event from anyone but the author leaves the view unchanged and is rejected with the notice, and the author's events reach the handler |
| Utils.RewindAndFastForward | bot/utils.py:95-147 | rewind shows the first page as "Page 1"; fast-forward shows the last page with its label |
| Utils.ArrowLeftSteps | bot/utils.py:104-116 | on the first page nothing happens; elsewhere the view steps back one page, shows it and relabels the sign |
| Utils.ArrowRightSteps | bot/utils.py:126-138 | one past the last page nothing happens; before the last page the view steps forward and shows the next page; on the last page the counter moves past the end, the IndexError is swallowed and the old page stays on screen |
| Utils.StopButtonEffect | bot/utils.py:149-158 | every button is disabled and other components are kept; on a real page the view then shows it and stops; one past the end the IndexError is raised and the view keeps running |
| Utils.StoppedIsTerminal | bot/utils.py:153-158 | a stopped view ignores every further event |
| Utils.RightTimesReaches | bot/utils.py:126-138 | k right-arrow presses from page c reach page min(c+k, len) and keep the invariant |
| Utils.FailedStopLocks | bot/utils.py:153-158 | stop pressed one past the last page raises IndexError and leaves every button disabled with the view still running |
| Utils.LockedStays | bot/utils.py:77-158 | from that locked state, no event by anyone unlocks the view |
| Utils.Run | bot/utils.py:77-158 | a sequence of events keeps the components well formed |
| Utils.LockedNeverStops | bot/utils.py:77-158 | after a failed stop the view never stops, whatever sequence of events follows |
| Utils.PressIntended | bot/utils.py:130-138 | with the intended bound, a counter on a real page stays on a real page after any press |
| Utils.IntendedStaysOnPage | bot/utils.py:130-138 | with the intended bound the counter stays on a real page, the view can always be stopped, and the right arrow does nothing on the last page |
| Utils.ArrowRightOverrun | bot/utils.py:126-158 | a three-page session as written: a stranger is rejected, the right arrow goes past the last page, the sign reads "Page 4", and stop then raises with the buttons disabled and the view not stopped |
| Utils.IntendedScenario | bot/utils.py:126-158 | the same session with the intended bound: the extra right arrow does nothing and stop ends the session on the last page |
| Utils.PaginatorView.constructor | bot/utils.py:86-90 | the new view has counter 0, the six declared buttons, and is not stopped |
| Utils.PaginatorView.AddItem | bot/ext/live_aquaria.py:141 | the component is appended after the existing ones, which are kept |
| Utils.PaginatorView.UpdateSign | bot/utils.py:92-93 | the components become WithPageLabel of the old ones for the current counter |
| Utils.PaginatorView.Edit | bot/utils.py:102 | the shown message becomes the page with the current components; a missing page yields the handler's IndexError outcome |
| Utils.PaginatorView.Rewind | bot/utils.py:95-102 | the new state and outcome are Press(Rewind) of the old state |
| Utils.PaginatorView.ArrowLeft | bot/utils.py:104-116 | the new state and outcome are Press(ArrowLeft) of the old state |
| Utils.PaginatorView.ArrowRight | bot/utils.py:126-138 | the new state and outcome are Press(ArrowRight) of the old state |
| Utils.PaginatorView.FastForward | bot/utils.py:140-147 | the new state and outcome are Press(FastForward) of the old state |
| Utils.PaginatorView.StopButton | bot/utils.py:149-158 | the loop disables every button; the new state and outcome are Press(StopButton) of the old state |
| Utils.PaginatorView.Interact | bot/utils.py:77-82 | the new state and outcome are Dispatch of the old state: a stopped view is not routed, a button shown disabled is not pressed, and the gate runs before the handler |
| Utils.Paginator.constructor | bot/utils.py:162-166 | the paginator owns the pages and a fresh view for its author, in the initial state |
| Utils.Paginator.Start | bot/utils.py:168-170 | sends entries[counter] with the view over the same pages attached, as a reply or not; no page means IndexError and nothing is shown |
| Utils.StartSendsFirstPage | bot/utils.py:162-170 | a new paginator sends the first page labelled "Page 1", and fails on an empty page list |
| Maths.KeyEdit | bot/ext/maths.py:51-59 | DEL drops the last character (an empty buffer stays empty); other keys append their text, and the x key appends a plain 'x' |
| Maths.Display | bot/ext/maths.py:58 | the display has the same length as the buffer, with each 'x' shown as the italic x glyph |
| Maths.DisplayIsReplace | bot/ext/maths.py:53-58 | the display is exactly Python's `replace('x', X)` on the buffer |
| Maths.DisplayRoundTrip | bot/ext/maths.py:53-58 | a buffer without the glyph is recovered from its display |
| Maths.KeypadAppendsClean | bot/ext/maths.py:107-126 | no key other than DEL and Enter appends the glyph or a newline |
| Maths.KeypadKeepsBufferClean | bot/ext/maths.py:51-59 | pressing any keypad key keeps the buffer free of the glyph and of newlines |
| Text.DigitsValueAppend | bot/utils.py:48-49 | the digits of a followed by those of b read as a times ten to the length of b, plus b |
| Maths.Decimal | bot/utils.py:48-49 | a decimal has the sign it is given, and multiplied by ten once per place after the point it is its digits' integer, with that sign |
| Maths.Value | bot/utils.py:48-52 | a numeral's value has its sign, and a numeral without a fraction is its digits' integer value |
| Maths.ValueIsDecimal | bot/utils.py:48-49 | a numeral's value multiplied by ten once per fraction digit is all its digits, whole then fraction, read as one integer with the numeral's sign: the fraction is part of the value |
| Maths.ScaleUpIsPow10 | bot/utils.py:48-49 | multiplying by ten k times is multiplying by ten to the k |
| Maths.ValueKeepsFraction | bot/utils.py:48-49 | "1.5" has the value one and a half |
| Maths.StripWhitespace | bot/ext/maths.py:134 | the result holds no Python whitespace, is no longer than the input, and equals an input that has none; a single whitespace character is deleted and any other is kept |
| Maths.StripWhitespaceChar | bot/ext/maths.py:134 | one character: whitespace is deleted, anything else is kept |
| Maths.StripWhitespaceCons | bot/ext/maths.py:134 | stripping a text deletes its first character if it is whitespace, keeps it otherwise, and strips the rest after it, so every non-whitespace character is kept in order |
| Maths.StripWhitespaceAppend | bot/ext/maths.py:134 | stripping distributes over concatenation |
| Maths.BlankKeyIsNotWhitespace | bot/ext/maths.py:134 | the zero-width-space key is not whitespace, so stripping keeps it |
| Maths.SpanDigits | bot/ext/maths.py:135 | splits off the maximal leading digit run: the parts rejoin to the input and the rest starts with no digit |
| Maths.SpanDigitsOf | bot/ext/maths.py:135 | a digit run followed by a non-digit is exactly what is split off |
| Maths.TakeSign | bot/ext/maths.py:135 | the optional sign and the rest rejoin to the input |
| Maths.TakeSignOf | bot/ext/maths.py:135 | before a digit, exactly the spelled sign is taken |
| Maths.ParseNumeral | bot/ext/maths.py:135 | a match is a well-formed numeral whose spelling followed by the rest is the input, and the rest cannot extend it |
| Maths.ParseNumeralOf | bot/ext/maths.py:135 | every spelled numeral is matched, and exactly it with its rest when the rest cannot extend it |
| Maths.MatchLinear | bot/ext/maths.py:137 | a match gives well-formed groups whose spelling followed by the rest is the input, and the rest cannot extend b |
| Maths.MatchFromEquals | bot/ext/maths.py:137 | the part of the pattern from '=' on: a match spells the input and keeps y |
| Maths.MatchFromX | bot/ext/maths.py:137 | the part of the pattern from 'x' on: a match spells the input and keeps y and m |
| Maths.MatchFromXOf | bot/ext/maths.py:137 | every spelled tail from 'x' on is matched, exactly when the rest cannot extend b |
| Maths.MatchFromEqualsOf | bot/ext/maths.py:137 | every spelled tail from '=' on is matched, exactly when the rest cannot extend b |
| Maths.MatchLinearOf | bot/ext/maths.py:137 | every spelled equation is matched whatever follows it, and exactly it when the rest cannot extend b |
| Maths.MatchLinearIff | bot/ext/maths.py:137 | the pattern matches iff the input starts with a spelled equation |
| Maths.TrailingTextIgnored | bot/ext/maths.py:137 | "8=5x+3abc" matches y=8, m=5, +3 and leaves "abc" |
| Maths.SignedB | bot/ext/maths.py:140-142 | b is negated after '-' and kept after '+' |
| Maths.SolveFor | bot/ext/maths.py:142-156 | m = 0 raises a zero division; otherwise m·x + b = y, and each step line is a true equation with b's sign and magnitude chosen as the code chooses them |
| Maths.SolveLinear | bot/ext/maths.py:134-158 | the result is InvalidEquation iff the stripped input does not start with the pattern |
| Maths.SolveSpelled | bot/ext/maths.py:134-156 | solving any buffer whose stripped text is a spelled y=mx±b followed by text that cannot extend b is the arithmetic on its y, m and signed b |
| Maths.StepsText | bot/ext/maths.py:146-147 | the steps start with the equation as typed, followed by a newline |
| Maths.IsolationLine | bot/ext/maths.py:149-151 | the second line starts with m followed by the italic x, and holds no newline when numbers are shown without one |
| Maths.DivisionLine | bot/ext/maths.py:153 | the third line starts with the italic x and " = " and ends with m, and holds no newline when numbers are shown without one |
| Maths.SolutionLine | bot/ext/maths.py:154 | the last line is the italic x, " = ", then the solution, and holds no newline when numbers are shown without one |
| Maths.StepsAreFourLines | bot/ext/maths.py:146-155 | the steps are exactly four lines: the equation as typed, the isolation of mx, the division and the solution |
| Maths.Callback | bot/ext/maths.py:41-59 | Enter keeps the buffer and never echoes; every other key echoes; DEL never echoes an empty display; an invalid equation is reported with the buffer quoted |
| Maths.CallbackEffect | bot/ext/maths.py:41-59 | Enter never changes the buffer and reports an invalid equation iff the stripped buffer does not start with one; other keys edit the buffer and echo a display that reads back as the buffer |
| Maths.EnterOutcome | bot/ext/maths.py:41-50 | Enter on a spelled equation: a zero m escapes as a zero division; otherwise the solution computed from its y, m and signed b is shown |
| Maths.EnterByValues | bot/ext/maths.py:41-50 | Enter when solving is the arithmetic on y, m and b: zero division for m = 0, the solution otherwise |
| Maths.EnterShowsResult | bot/ext/maths.py:41-50 | Enter keeps the buffer, shows a solution that solving gives, and lets a zero division escape |
| Maths.LinearUI.constructor | bot/ext/maths.py:101-126 | the keypad holds its 20 keys in order with their styles and rows, and the buffer is empty |
| Maths.LinearUI.Interact | bot/ext/maths.py:33-59 | a stranger is rejected and the buffer is kept; the author's press gives the buffer and response of the callback |
| Graphs.All | bot/ext/graphs.py:20 | Python's all: true iff every element is true |
| Graphs.DataCheck | bot/ext/graphs.py:17-20 | true iff every argument is a non-empty run of digits |
| Graphs.DataCheckCases | bot/ext/graphs.py:17-20 | no arguments pass; "", "-3", "1.5" and a non-digit argument fail |
| Graphs.GraphCommand | bot/ext/graphs.py:165-171 | as written, the guard tests the unawaited coroutine, which is always truthy, so every input is plotted |
| Graphs.GuardLetsNonNumbersThrough | bot/ext/graphs.py:167-168 | "abc" fails data_check yet reaches the plotting code |
| Graphs.AwaitedGraphCommand | bot/ext/graphs.py:165-171 | with the check awaited, the data is refused with the message iff some argument is not a digit string |
| Text.Replace | bot/ext/graphs.py:124-126 | replacing a pattern by itself, or in a text shorter than the pattern, changes nothing |
| Graphs.Delete | bot/ext/graphs.py:124 | the deleted character is gone and every other character present remains present |
| Graphs.DeleteAbsent | bot/ext/graphs.py:124 | deleting the space from a text that has none leaves it unchanged |
| Graphs.ReplaceSpaceDeletes | bot/ext/graphs.py:124 | replacing ' ' by '' deletes every space and nothing else |
| Graphs.InsertMul | bot/ext/graphs.py:125 | the substitution only inserts '*' characters, one per x that follows a digit, an x or ')', and leaves no x directly after any of them |
| Graphs.InsertMulAfter | bot/ext/graphs.py:119-125 | the substitution adds exactly one character per x that follows a digit, an x or ')' |
| Graphs.StarsInsertedTrans | bot/ext/graphs.py:124-126 | inserting stars into a text that has stars inserted is inserting stars |
| Graphs.MovedStarIsNotInserted | bot/ext/graphs.py:124-126 | moving an existing '*' ("x*2" to "x2*") does not count as inserting stars |
| Graphs.InsertMulAfterEmbeds | bot/ext/graphs.py:119-125 | the substitution's result is its input with '*' characters inserted, every input character kept in place and order |
| Graphs.InsertMulAfterInsertsStars | bot/ext/graphs.py:119-125 | deleting every '*' from the substitution's result gives the input with its '*' deleted |
| Graphs.InsertMulAfterSeparates | bot/ext/graphs.py:119-125 | afterwards no x directly follows a digit, an x or ')' |
| Graphs.InsertMulAfterSeparated | bot/ext/graphs.py:125 | a text already separated is left unchanged |
| Graphs.InsertMulIdempotent | bot/ext/graphs.py:125 | applying the substitution twice equals applying it once |
| Graphs.InsertMulRunOfX | bot/ext/graphs.py:119-125 | "2xx" becomes "2*x*x" |
| Graphs.InsertMulNothingNeeded | bot/ext/graphs.py:119-125 | "x+1" is kept |
| Graphs.InsertMulAfterBracket | bot/ext/graphs.py:119-125 | "1)x" becomes "1)*x" |
| Graphs.ReplaceParensStars | bot/ext/graphs.py:126 | Python's left-to-right replace of ")(" puts a '*' into every adjacent ")(" pair |
| Graphs.StarBetween | bot/ext/graphs.py:126 | the replacement never shortens the text and keeps its first character |
| Graphs.StarBetweenEmbeds | bot/ext/graphs.py:126 | that replacement's result is its input with '*' characters inserted |
| Graphs.StarBetweenInsertsStars | bot/ext/graphs.py:126 | deleting every '*' from its result gives the input with its '*' deleted |
| Graphs.StarBetweenSplitsParens | bot/ext/graphs.py:126 | afterwards no ')' is directly followed by '(' |
| Graphs.StarBetweenKeepsSeparated | bot/ext/graphs.py:126 | that replacement puts no digit, x or ')' before an x |
| Graphs.Normalise | bot/ext/graphs.py:124-126 | the three rewrites equal deleting spaces, then inserting '*' before each x that follows a digit, an x or ')', then between each ')' and '(' |
| Graphs.NormaliseSpec | bot/ext/graphs.py:124-126 | the normalised equation is the space-free input with only '*' characters inserted (an embedding); it holds no space, no ")(" and no x after a digit, an x or ')' |
| Graphs.NormaliseBrackets | bot/ext/graphs.py:124-126 | "(x)(1)" becomes "(x)*(1)" |
| Graphs.NoSpacesInBrackets | bot/ext/graphs.py:124 | "(x)(1)" has no space to delete |
| Graphs.InsertMulKeepsBrackets | bot/ext/graphs.py:125 | "(x)(1)" needs no '*' before an x |
| Graphs.StarBetweenBrackets | bot/ext/graphs.py:126 | "(x)(1)" becomes "(x)*(1)" |
| Graphs.NormaliseCoefficient | bot/ext/graphs.py:124-126 | "3 x" becomes "3*x", because spaces go before the substitution |

## Left out

- Network and platform I/O are parameters or outcomes, not effects:
  - message sends and edits;
  - ephemeral notices;
  - the CDN upload (`post_cdn`);
  - the HTTP failure of an edit.
- `to_thread` appears only through its effect on `data_check`: the call returns an unawaited coroutine. Worker threads are left out.
- The platform's limit of 25 components per view, which `add_item` enforces, is not modelled: `AddItem` always appends.
- A press of a button that the message shows disabled is never delivered by the platform. The model states this as the `Unclickable` outcome rather than modelling the client.
- View timeouts and the timer that stops a view on timeout are left out.
- The `page_sign` button does nothing; it has no handler in the model.
- Button styles of the paginator are left out. Keypad styles and rows are modelled.
- `num`'s choice between `int` and `float` is left out. Floating-point rounding is left out too: numbers are exact reals, and the text of the steps is built by a `show` parameter that renders a number.
- The Enter branch's graph and image upload (`linear_graph`, `post_cdn`) is left out. So is removing the view after Enter.
- `CalcUI`, whose `add_item` sequence is a prefix of `LinearUI`'s, is not part of this model. Neither are its unused arithmetic helpers.
- Plotting (`bar`, `pie`, `scatter`, `line`, `quadratic`, `linear`, `exponent`) is left out. So is the evaluation of the normalised equation by the `Equation` library and the TypeError reply of the `equation` command.
- `str.isdigit` and `\d` are modelled over ASCII digits. Other Unicode digits are left out.
- The regular expression's backtracking is modelled by maximal munch of each numeral. The two agree here because every numeral inside the pattern is followed by '=' or 'x', neither of which can extend it.
- bot/bot.py, bot/context.py, bot/ext/fishbase.py, bot/ext/live_aquaria.py and bot/ext/games.py are not part of this model. The paginator's emoji constants are copied from bot/bot.py.

## Findings

| source | as written | input that shows it | evidently intended | confidence | as-written member | corrected member |
|---|---|---|---|---|---|---|
| bot/utils.py:132 | the right arrow stops only at counter == len(entries), so it can move one past the last page; stop then raises IndexError after disabling every button, and from then on no event can stop the view | three pages, press fast-forward, then the right arrow, then stop | stop at the last page (counter == len(entries) - 1) | high; not executed | Utils.ArrowRightOverrun | Utils.IntendedStaysOnPage |
| bot/utils.py:64 | keeps 1997 characters whatever the limit, so a limit below 2000 can be exceeded | 150 characters with limit 100 gives 153 | keep limit - 3 characters | medium; not executed | Utils.TruncateOverrunsSmallLimit | Utils.TruncateWithin |
| bot/ext/graphs.py:167 | `data_check` is wrapped by `to_thread`, so the guard tests an unawaited coroutine, which is always truthy, and never refuses | the arguments ("abc",) are plotted | `if not await data_check(args)` | high; not executed | Graphs.GuardLetsNonNumbersThrough | Graphs.AwaitedGraphCommand |

=== FILE: graphs.dfy ===
/** Model of the input handling in bot/ext/graphs.py: the `data_check`
    predicate, the guard the plotting commands put in front of it, and the
    string rewriting at the start of `equation_`. */
module Graphs {
  import opened Text

  // ---------------------------------------------------------------------
  // data_check

  /** `str.isdigit` over ASCII: a non-empty run of digits. */
  predicate IsDigitString(s: string) {
    |s| > 0 && AllDigits(s)
  }

  /** Python's `all` over a list of booleans. */
  function All(bs: seq<bool>): (r: bool)
    ensures r <==> forall i :: 0 <= i < |bs| ==> bs[i]
  {
    if bs == [] then true else bs[0] && All(bs[1..])
  }

  /** `data_check`: `all([a.isdigit() for a in data])`. */
  function DataCheck(data: seq<string>): (r: bool)
    ensures r <==> forall i :: 0 <= i < |data| ==> IsDigitString(data[i])
  {
    var checks := seq(|data|, i requires 0 <= i < |data| => IsDigitString(data[i]));
    assert forall i :: 0 <= i < |data| ==> checks[i] == IsDigitString(data[i]);
    All(checks)
  }

  /** Signs, points and empty strings fail; no arguments at all pass. */
  lemma DataCheckCases()
    ensures DataCheck([]) && DataCheck(["12", "0"])
    ensures !DataCheck([""]) && !DataCheck(["-3"]) && !DataCheck(["1.5"]) && !DataCheck(["7", "x"])
  {
    assert !IsDigitString("-3") by { assert !IsDigit("-3"[0]); }
    assert !IsDigitString("1.5") by { assert !IsDigit("1.5"[1]); }
    assert !IsDigitString("x") by { assert !IsDigit("x"[0]); }
    assert ["7", "x"][1] == "x";
  }

  // ---------------------------------------------------------------------
  // The guard `if not data_check(args)`

  /** The Python values the guard can test: a boolean, or the coroutine that
      a `to_thread`-wrapped call returns before it is awaited. */
  datatype PyValue = Bool(b: bool) | Coroutine(result: bool)

  /** Python truthiness: a coroutine object is always true. */
  function Truthy(v: PyValue): bool {
    match v
    case Bool(b) => b
    case Coroutine(_) => true
  }

  /** Calling the `to_thread`-wrapped `data_check` without awaiting it. */
  function DataCheckCall(data: seq<string>): PyValue {
    Coroutine(DataCheck(data))
  }

  const NotNumerical: string := "data points must be numerical values!"

  /** What a plotting command does with its arguments: refuse them with the
      message, or go on to plot them. */
  datatype Reply = Refused(message: string) | Plotted(points: seq<string>)

  /** The commands bar, pie, scatterplot, linegraph and exponential as
      written: the guard tests the unawaited call, so it never refuses. */
  function GraphCommand(data: seq<string>): (r: Reply)
    ensures r == Plotted(data)
  {
    if !Truthy(DataCheckCall(data)) then Refused(NotNumerical) else Plotted(data)
  }

  /** Data that `data_check` rejects still reaches the plotting code. */
  lemma GuardLetsNonNumbersThrough()
    ensures !DataCheck(["abc"]) && GraphCommand(["abc"]) == Plotted(["abc"])
  {
    assert !IsDigit("abc"[0]);
  }

  /** The guard with the call awaited: the data is refused exactly when some
      argument is not a digit string. */
  function AwaitedGraphCommand(data: seq<string>): (r: Reply)
    ensures r.Refused? <==> exists i :: 0 <= i < |data| && !IsDigitString(data[i])
    ensures r.Refused? ==> r.message == NotNumerical
    ensures r.Plotted? ==> r.points == data
  {
    if !Truthy(Bool(DataCheck(data))) then Refused(NotNumerical) else Plotted(data)
  }

  // ---------------------------------------------------------------------
  // Normalising the equation

  /** `s` with every `c` deleted. */
  function Delete(s: string, c: char): (r: string)
    ensures c !in r
    ensures forall d :: d != c ==> (d in r <==> d in s)
  {
    if s == [] then [] else (if s[0] == c then [] else [s[0]]) + Delete(s[1..], c)
  }

  /** `equation.replace(' ', '')` deletes the space character and nothing
      else. */
  lemma {:induction false} ReplaceSpaceDeletes(s: string)
    ensures Replace(s, " ", "") == Delete(s, ' ')
    decreases |s|
  {
    if s != [] {
      ReplaceSpaceDeletes(s[1..]);
      if s[..1] == " " {
        assert s[0] == ' ';
      } else {
        assert s[0] != ' ' by { assert s[..1] == [s[0]]; }
      }
    }
  }

  /** The characters before which `_mul` puts a `*`: `[0-9x)]`. */
  predicate ImpliesProduct(c: char) {
    IsDigit(c) || c == 'x' || c == ')'
  }

  /** `re.sub(r"(?<=[0-9x)])x", _mul, s)`, scanning the input while
      remembering whether the previous input character is in `[0-9x)]`: each
      such `x` becomes `*x` (`_mul` inserts `*` before the last character of
      the one-character match). The look-behind reads the input, so in a run
      of x every x after the first gets its `*`. */
  function InsertMulAfter(s: string, afterProduct: bool): (r: string)
    ensures |r| == |s| + MulsNeeded(s, afterProduct)
    decreases |s|
  {
    if s == [] then []
    else
      (if s[0] == 'x' && afterProduct then "*x" else [s[0]]) + InsertMulAfter(s[1..], ImpliesProduct(s[0]))
  }

  function InsertMul(s: string): (r: string)
    ensures StarsInserted(s, r) && Separated(r, false)
    ensures |r| == |s| + MulsNeeded(s, false)
  {
    InsertMulAfterEmbeds(s, false);
    InsertMulAfterSeparates(s, false);
    InsertMulAfter(s, false)
  }

  /** How many `*` `InsertMulAfter` adds. */
  function MulsNeeded(s: string, afterProduct: bool): nat
    decreases |s|
  {
    if s == [] then 0
    else (if s[0] == 'x' && afterProduct then 1 else 0) + MulsNeeded(s[1..], ImpliesProduct(s[0]))
  }

  /** `s` without its `*` characters. */
  function DropStars(s: string): string {
    Delete(s, '*')
  }

  lemma {:induction false} DeleteAppend(a: string, b: string, c: char)
    ensures Delete(a + b, c) == Delete(a, c) + Delete(b, c)
  {
    if a == [] {
      assert a + b == b;
    } else {
      assert (a + b)[0] == a[0];
      assert (a + b)[1..] == a[1..] + b;
      DeleteAppend(a[1..], b, c);
      var kept := if a[0] == c then [] else [a[0]];
      assert Delete(a + b, c) == kept + (Delete(a[1..], c) + Delete(b, c));
    }
  }

  /** No `x` of `r` follows a character of `[0-9x)]`, nor opens `r` when the
      text before it ends in one. */
  predicate Separated(r: string, afterProduct: bool) {
    && (r != [] && r[0] == 'x' ==> !afterProduct)
    && forall j :: 0 < j < |r| && r[j] == 'x' ==> !ImpliesProduct(r[j - 1])
  }

  /** `r` is `s` with some `*` inserted: `s` embeds into `r` in order, and
      every character of `r` outside the embedding is a `*`. */
  predicate StarsInserted(s: string, r: string)
    decreases |r|
  {
    if r == [] then s == []
    else
      || (s != [] && r[0] == s[0] && StarsInserted(s[1..], r[1..]))
      || (r[0] == '*' && StarsInserted(s, r[1..]))
  }

  /** Inserting stars twice is inserting stars. */
  lemma {:induction false} StarsInsertedTrans(a: string, b: string, c: string)
    requires StarsInserted(a, b) && StarsInserted(b, c)
    ensures StarsInserted(a, c)
    decreases |c|
  {
    if c != [] {
      if c[0] == '*' && StarsInserted(b, c[1..]) {
        StarsInsertedTrans(a, b, c[1..]);
      } else if a != [] && b[0] == a[0] && StarsInserted(a[1..], b[1..]) {
        StarsInsertedTrans(a[1..], b[1..], c[1..]);
      } else {
        StarsInsertedTrans(a, b[1..], c[1..]);
      }
    }
  }

  /** The embedding pins down where the stars go: moving a `*` the input
      already had is not inserting one. */
  lemma MovedStarIsNotInserted()
    ensures !StarsInserted("x*2", "x2*")
  {
    assert "x2*"[1..] == "2*" && "x*2"[1..] == "*2";
    assert !StarsInserted("*2", "2*");
  }

  /** `InsertMulAfter` only inserts `*`. */
  lemma {:induction false} InsertMulAfterEmbeds(s: string, afterProduct: bool)
    ensures StarsInserted(s, InsertMulAfter(s, afterProduct))
    decreases |s|
  {
    if s != [] {
      var rest := InsertMulAfter(s[1..], ImpliesProduct(s[0]));
      InsertMulAfterEmbeds(s[1..], ImpliesProduct(s[0]));
      if s[0] == 'x' && afterProduct {
        var r := "*x" + rest;
        assert r[1..] == ['x'] + rest && (['x'] + rest)[1..] == rest;
        assert StarsInserted(s, r[1..]);
      } else {
        assert ([s[0]] + rest)[1..] == rest;
      }
    }
  }

  /** `InsertMulAfter` keeps every character other than `*`, in order. */
  lemma {:induction false} InsertMulAfterInsertsStars(s: string, afterProduct: bool)
    ensures DropStars(InsertMulAfter(s, afterProduct)) == DropStars(s)
    decreases |s|
  {
    if s != [] {
      var piece := if s[0] == 'x' && afterProduct then "*x" else [s[0]];
      var rest := InsertMulAfter(s[1..], ImpliesProduct(s[0]));
      InsertMulAfterInsertsStars(s[1..], ImpliesProduct(s[0]));
      DeleteAppend(piece, rest, '*');
      DeleteAppend([s[0]], s[1..], '*');
      assert s == [s[0]] + s[1..];
      assert DropStars(piece) == DropStars([s[0]]);
    }
  }

  /** After `InsertMulAfter` no `x` directly follows a character of
      `[0-9x)]`. */
  lemma {:induction false} InsertMulAfterSeparates(s: string, afterProduct: bool)
    ensures Separated(InsertMulAfter(s, afterProduct), afterProduct)
    decreases |s|
  {
    if s != [] {
      var piece := if s[0] == 'x' && afterProduct then "*x" else [s[0]];
      var rest := InsertMulAfter(s[1..], ImpliesProduct(s[0]));
      InsertMulAfterSeparates(s[1..], ImpliesProduct(s[0]));
      var r := piece + rest;
      assert piece[|piece| - 1] == s[0];
      forall j | 0 < j < |r| && r[j] == 'x'
        ensures !ImpliesProduct(r[j - 1])
      {
        if j > |piece| {
          assert r[j] == rest[j - |piece|] && r[j - 1] == rest[j - 1 - |piece|];
        } else if j == |piece| {
          assert r[j] == rest[0];
        }
      }
    }
  }

  /** A text that is already separated is left alone. */
  lemma {:induction false} InsertMulAfterSeparated(r: string, afterProduct: bool)
    requires Separated(r, afterProduct)
    ensures InsertMulAfter(r, afterProduct) == r
    decreases |r|
  {
    if r != [] {
      assert r[1..] != [] && r[1..][0] == 'x' ==> !ImpliesProduct(r[0]) by {
        if r[1..] != [] && r[1..][0] == 'x' {
          assert r[1] == 'x';
        }
      }
      assert forall j :: 0 < j < |r[1..]| && r[1..][j] == 'x' ==> r[j + 1] == 'x' && r[1..][j - 1] == r[j];
      InsertMulAfterSeparated(r[1..], ImpliesProduct(r[0]));
      assert r == [r[0]] + r[1..];
    }
  }

  /** Inserting the `*` twice is inserting them once. */
  lemma InsertMulIdempotent(s: string)
    ensures InsertMul(InsertMul(s)) == InsertMul(s)
  {
    InsertMulAfterSeparates(s, false);
    InsertMulAfterSeparated(InsertMul(s), false);
  }

  /** One step of `InsertMulAfter`. */
  lemma InsertMulAfterStep(c: char, rest: string, afterProduct: bool)
    ensures InsertMulAfter([c] + rest, afterProduct)
      == (if c == 'x' && afterProduct then "*x" else [c]) + InsertMulAfter(rest, ImpliesProduct(c))
  {
    assert ([c] + rest)[1..] == rest;
  }

  /** The look-behind reads the input, so runs of x are separated fully. */
  lemma InsertMulRunOfX()
    ensures InsertMul("2xx") == "2*x*x"
  {
    InsertMulAfterStep('x', "", true);
    InsertMulAfterStep('x', "x", true);
    InsertMulAfterStep('2', "xx", false);
    assert "2xx" == ['2'] + "xx" && "xx" == ['x'] + "x" && "x" == ['x'] + "";
  }

  /** An expression that needs no `*` is left alone. */
  lemma InsertMulNothingNeeded()
    ensures InsertMul("x+1") == "x+1"
  {
    InsertMulAfterStep('1', "", false);
    InsertMulAfterStep('+', "1", true);
    InsertMulAfterStep('x', "+1", false);
    assert "x+1" == ['x'] + "+1" && "+1" == ['+'] + "1" && "1" == ['1'] + "";
  }

  /** A closing bracket implies a product with the x after it. */
  lemma InsertMulAfterBracket()
    ensures InsertMul("1)x") == "1)*x"
  {
    InsertMulAfterStep('x', "", true);
    InsertMulAfterStep(')', "x", false);
    InsertMulAfterStep('1', ")x", false);
    assert "1)x" == ['1'] + ")x" && ")x" == [')'] + "x" && "x" == ['x'] + "";
  }

  /** `s.replace(")(", ")*(")`, stated character by character: a `*` after
      every `)` that a `(` follows. */
  function StarBetween(s: string): (r: string)
    ensures |r| >= |s|
    ensures s != [] ==> r != [] && r[0] == s[0]
    decreases |s|
  {
    if |s| < 2 then s
    else if s[0] == ')' && s[1] == '(' then ")*" + StarBetween(s[1..])
    else [s[0]] + StarBetween(s[1..])
  }

  /** One step of `StarBetween` on a non-empty remainder. */
  lemma StarBetweenStep(c: char, rest: string)
    requires rest != []
    ensures StarBetween([c] + rest) == (if c == ')' && rest[0] == '(' then ")*" else [c]) + StarBetween(rest)
  {
    assert ([c] + rest)[1..] == rest;
  }

  /** Occurrences of `)(` never overlap, so Python's left-to-right
      replacement puts a `*` into every one of them. */
  lemma {:induction false} ReplaceParensStars(s: string)
    ensures Replace(s, ")(", ")*(") == StarBetween(s)
    decreases |s|
  {
    if |s| >= 2 {
      if s[..2] == ")(" {
        assert s[0] == ')' && s[1] == '(' by { assert s[0] == s[..2][0] && s[1] == s[..2][1]; }
        ReplaceParensStars(s[2..]);
        if |s| > 2 {
          assert s[1..] == ['('] + s[2..];
          StarBetweenStep('(', s[2..]);
        }
      } else {
        assert !(s[0] == ')' && s[1] == '(');
        ReplaceParensStars(s[1..]);
      }
    }
  }

  /** `StarBetween` only inserts `*`. */
  lemma {:induction false} StarBetweenEmbeds(s: string)
    ensures StarsInserted(s, StarBetween(s))
    decreases |s|
  {
    if |s| == 1 {
      assert s[1..] == [];
    } else if |s| >= 2 {
      var rest := StarBetween(s[1..]);
      StarBetweenEmbeds(s[1..]);
      if s[0] == ')' && s[1] == '(' {
        var r := ")*" + rest;
        assert r[1..] == ['*'] + rest && (['*'] + rest)[1..] == rest;
        assert StarsInserted(s[1..], r[1..]);
      } else {
        assert ([s[0]] + rest)[1..] == rest;
      }
    }
  }

  /** `StarBetween` keeps every character other than `*`, in order. */
  lemma {:induction false} StarBetweenInsertsStars(s: string)
    ensures DropStars(StarBetween(s)) == DropStars(s)
    decreases |s|
  {
    if |s| >= 2 {
      var piece := if s[0] == ')' && s[1] == '(' then ")*" else [s[0]];
      StarBetweenInsertsStars(s[1..]);
      DeleteAppend(piece, StarBetween(s[1..]), '*');
      DeleteAppend([s[0]], s[1..], '*');
      assert s == [s[0]] + s[1..];
    }
  }

  /** No `)` is directly followed by `(`. */
  predicate NoAdjacentParens(r: string) {
    forall j :: 0 <= j < |r| - 1 ==> !(r[j] == ')' && r[j + 1] == '(')
  }

  /** `StarBetween` leaves no `)(`. */
  lemma {:induction false} StarBetweenSplitsParens(s: string)
    ensures NoAdjacentParens(StarBetween(s))
    decreases |s|
  {
    if |s| >= 2 {
      var piece := if s[0] == ')' && s[1] == '(' then ")*" else [s[0]];
      var rest := StarBetween(s[1..]);
      StarBetweenSplitsParens(s[1..]);
      var r := piece + rest;
      forall j | 0 <= j < |r| - 1
        ensures !(r[j] == ')' && r[j + 1] == '(')
      {
        if j >= |piece| {
          assert r[j] == rest[j - |piece|] && r[j + 1] == rest[j + 1 - |piece|];
        } else if j == |piece| - 1 {
          assert r[j + 1] == rest[0];
        }
      }
    }
  }

  /** `StarBetween` puts no character of `[0-9x)]` before an `x`. */
  lemma {:induction false} StarBetweenKeepsSeparated(s: string, afterProduct: bool)
    requires Separated(s, afterProduct)
    ensures Separated(StarBetween(s), afterProduct)
    decreases |s|
  {
    if |s| >= 2 {
      var piece := if s[0] == ')' && s[1] == '(' then ")*" else [s[0]];
      var rest := StarBetween(s[1..]);
      assert Separated(s[1..], ImpliesProduct(s[0])) by {
        assert forall j :: 0 < j < |s[1..]| && s[1..][j] == 'x' ==> s[j + 1] == 'x' && s[1..][j - 1] == s[j];
      }
      StarBetweenKeepsSeparated(s[1..], ImpliesProduct(s[0]));
      var r := piece + rest;
      forall j | 0 < j < |r| && r[j] == 'x'
        ensures !ImpliesProduct(r[j - 1])
      {
        if j > |piece| {
          assert r[j] == rest[j - |piece|] && r[j - 1] == rest[j - 1 - |piece|];
        } else if j == |piece| {
          assert r[j] == rest[0] == s[1];
          assert r[j - 1] == s[0];
        }
      }
    }
  }

  /** The prelude of `equation_`: delete spaces, insert `*` after `[0-9x)]`
      before an `x`, then between `)` and `(`. */
  function Normalise(equation: string): (r: string)
    ensures r == StarBetween(InsertMul(Delete(equation, ' ')))
  {
    ReplaceSpaceDeletes(equation);
    ReplaceParensStars(InsertMul(Delete(equation, ' ')));
    Replace(InsertMul(Replace(equation, " ", "")), ")(", ")*(")
  }

  /** The normalised equation is the space-free input with only `*`
      inserted, holds no space and no `)(`, and has a `*` wherever an `x`
      would follow a digit, an `x` or a `)`. */
  lemma NormaliseSpec(equation: string)
    ensures var r := Normalise(equation);
      && StarsInserted(Delete(equation, ' '), r)
      && DropStars(r) == DropStars(Delete(equation, ' '))
      && ' ' !in r
      && NoAdjacentParens(r)
      && Separated(r, false)
  {
    var stripped := Delete(equation, ' ');
    var mul := InsertMul(stripped);
    InsertMulAfterEmbeds(stripped, false);
    InsertMulAfterInsertsStars(stripped, false);
    InsertMulAfterSeparates(stripped, false);
    StarBetweenEmbeds(mul);
    StarsInsertedTrans(stripped, mul, StarBetween(mul));
    StarBetweenInsertsStars(mul);
    StarBetweenSplitsParens(mul);
    StarBetweenKeepsSeparated(mul, false);
    assert ' ' !in mul by {
      assert DropStars(mul) == DropStars(stripped);
      assert forall d :: d != '*' ==> (d in DropStars(mul) <==> d in mul);
    }
    var r := Normalise(equation);
    assert ' ' !in r by {
      assert forall d :: d != '*' ==> (d in DropStars(r) <==> d in r);
      assert forall d :: d != '*' ==> (d in DropStars(mul) <==> d in mul);
    }
  }

  /** A product of brackets gets its `*`. */
  lemma NormaliseBrackets()
    ensures Normalise("(x)(1)") == "(x)*(1)"
  {
    NoSpacesInBrackets();
    InsertMulKeepsBrackets();
    StarBetweenBrackets();
  }

  /** `(x)(1)` has no space to delete. */
  lemma NoSpacesInBrackets()
    ensures Delete("(x)(1)", ' ') == "(x)(1)"
  {
    var e := "(x)(1)";
    assert forall i | 0 <= i < |e| :: e[i] != ' ';
    DeleteAbsent(e, ' ');
  }

  /** Deleting a character that does not occur changes nothing. */
  lemma {:induction false} DeleteAbsent(s: string, c: char)
    requires c !in s
    ensures Delete(s, c) == s
    decreases |s|
  {
    if s != [] {
      assert c !in s[1..];
      DeleteAbsent(s[1..], c);
      assert s == [s[0]] + s[1..];
    }
  }

  /** The one `)(` of `(x)(1)` gets its `*`. */
  lemma StarBetweenBrackets()
    ensures StarBetween("(x)(1)") == "(x)*(1)"
  {
    var t3 := "(1)";
    assert StarBetween(t3) == t3;
    var t2 := [')'] + t3;
    StarBetweenStep(')', t3);
    var u2 := ")*" + t3;
    assert StarBetween(t2) == u2;
    var t1 := ['x'] + t2;
    StarBetweenStep('x', t2);
    var u1 := ['x'] + u2;
    assert StarBetween(t1) == u1;
    assert "(x)(1)" == ['('] + t1;
    StarBetweenStep('(', t1);
    assert ['('] + u1 == "(x)*(1)";
  }

  /** No `x` follows a character that implies a product in `(x)(1)`. */
  lemma InsertMulKeepsBrackets()
    ensures InsertMul("(x)(1)") == "(x)(1)"
  {
    var e := "(x)(1)";
    assert Separated(e, false) by {
      forall j | 0 < j < |e| && e[j] == 'x'
        ensures !ImpliesProduct(e[j - 1])
      {
        assert j == 1;
      }
    }
    InsertMulAfterSeparated(e, false);
  }

  /** Spaces go first, so a coefficient written apart from its `x` still
      gets its `*`. */
  lemma NormaliseCoefficient()
    ensures Normalise("3 x") == "3*x"
  {
    var e := "3 x";
    assert Delete(e, ' ') == "3x";
    assert InsertMul("3x") == "3*x";
    assert StarBetween("3*x") == "3*x";
  }
}

=== FILE: maths.dfy ===
/** Model of the linear-equation calculator in bot/ext/maths.py: the keypad
    of `LinearUI`, the equation buffer that `CalcButton.callback` edits, and
    `LinearUI.solve_lineareq_2`, which parses `y = mx + b` and solves for x. */
module Maths {
  import opened Wrappers
  import opened Text
  import Utils

  // ---------------------------------------------------------------------
  // The keypad

  /** MATHEMATICAL ITALIC SMALL X, the label of the x key and the glyph the
      buffer is displayed with. */
  const XChar: char := '\U{1D465}'
  const X: string := [XChar]
  const Del: string := "DEL"
  /** ZERO WIDTH SPACE, the label of the three blank keys. */
  const WS: string := "\U{200B}"
  const Enter: string := "Enter"

  datatype Style = Grey | Blurple | Red | Green

  /** A `CalcButton`: its label, colour and keypad row. */
  datatype CalcKey = CalcKey(text: string, style: Style, row: nat)

  /** The keys `LinearUI.__init__` adds, in order. */
  function LinearKeypad(): seq<CalcKey> {
    [ CalcKey("1", Grey, 0), CalcKey("2", Grey, 0), CalcKey("3", Grey, 0),
      CalcKey("4", Grey, 1), CalcKey("5", Grey, 1), CalcKey("6", Grey, 1),
      CalcKey("7", Grey, 2), CalcKey("8", Grey, 2), CalcKey("9", Grey, 2),
      CalcKey(".", Grey, 3), CalcKey("0", Grey, 3), CalcKey("=", Blurple, 3),
      CalcKey("+", Red, 0), CalcKey("-", Red, 1), CalcKey(X, Blurple, 2),
      CalcKey(Enter, Green, 3), CalcKey(Del, Red, 0),
      CalcKey(WS, Grey, 1), CalcKey(WS, Grey, 2), CalcKey(WS, Grey, 3) ]
  }

  // ---------------------------------------------------------------------
  // Editing the buffer

  /** The DEL and append branches of `CalcButton.callback`: DEL drops the last
      character (an empty buffer stays empty); any other label is appended,
      the x key appending a plain 'x'. */
  function KeyEdit(equation: string, text: string): (r: string)
    ensures text == Del ==> r == (if equation == [] then [] else equation[..|equation| - 1])
    ensures text == Del && equation != [] ==> r + [equation[|equation| - 1]] == equation
    ensures text != Del ==> |r| == |equation| + |if text == X then "x" else text|
    ensures text != Del ==> r[..|equation|] == equation && r[|equation|..] == (if text == X then "x" else text)
  {
    if text == Del then
      if equation == [] then [] else equation[..|equation| - 1]
    else
      equation + (if text == X then "x" else text)
  }

  /** `equation.replace('x', X)`: how the buffer is shown on the keypad. */
  function Display(equation: string): (r: string)
    ensures |r| == |equation|
    ensures forall i :: 0 <= i < |r| ==> r[i] == if equation[i] == 'x' then XChar else equation[i]
  {
    seq(|equation|, i requires 0 <= i < |equation| => if equation[i] == 'x' then XChar else equation[i])
  }

  /** The display is `str.replace` of 'x' by the glyph. */
  lemma {:induction false} DisplayIsReplace(equation: string)
    ensures Display(equation) == Replace(equation, "x", X)
    decreases |equation|
  {
    if equation != [] {
      DisplayIsReplace(equation[1..]);
      assert equation[..1] == [equation[0]];
      var head := if equation[0] == 'x' then XChar else equation[0];
      assert Display(equation) == [head] + Display(equation[1..]);
    }
  }

  /** Reading a displayed buffer back. */
  function Undisplay(shown: string): string {
    seq(|shown|, i requires 0 <= i < |shown| => if shown[i] == XChar then 'x' else shown[i])
  }

  /** A buffer without the display glyph is recovered from its display. */
  lemma DisplayRoundTrip(equation: string)
    requires XChar !in equation
    ensures Undisplay(Display(equation)) == equation
  {
    var back := Undisplay(Display(equation));
    forall i | 0 <= i < |equation| ensures back[i] == equation[i] {
      assert equation[i] != XChar;
    }
  }

  /** The buffer as the keypad holds it: no display glyph, no newline. */
  predicate CleanBuffer(equation: string) {
    XChar !in equation && '\n' !in equation
  }

  /** What the keys other than DEL and Enter append is free of the display
      glyph and of newlines. */
  lemma KeypadAppendsClean(key: CalcKey)
    requires key in LinearKeypad() && key.text != Del && key.text != Enter
    ensures var t := if key.text == X then "x" else key.text; XChar !in t && '\n' !in t
  {
  }

  /** Pressing any key of the keypad keeps the buffer clean. */
  lemma KeypadKeepsBufferClean(equation: string, key: CalcKey)
    requires CleanBuffer(equation) && key in LinearKeypad() && key.text != Enter
    ensures CleanBuffer(KeyEdit(equation, key.text))
  {
    var r := KeyEdit(equation, key.text);
    if key.text == Del {
      if equation != [] {
        assert r == equation[..|equation| - 1];
        assert forall c :: c in r ==> c in equation;
      }
    } else {
      KeypadAppendsClean(key);
      assert r == equation + (if key.text == X then "x" else key.text);
    }
  }

  // ---------------------------------------------------------------------
  // Whitespace

  /** Python's whitespace (`str.isspace`, and so `\s`). ZERO WIDTH SPACE is not
      among them. */
  predicate IsPySpace(c: char) {
    || ('\t' <= c <= '\r')
    || ('\U{1C}' <= c <= ' ')
    || c == '\U{85}' || c == '\U{A0}' || c == '\U{1680}'
    || ('\U{2000}' <= c <= '\U{200A}')
    || c == '\U{2028}' || c == '\U{2029}' || c == '\U{202F}' || c == '\U{205F}' || c == '\U{3000}'
  }

  /** `re.sub(r'\s+', '', equation)`: each whitespace character is deleted and
      every other character is kept; with `StripWhitespaceAppend` this fixes
      the result on every string. */
  function StripWhitespace(s: string): (r: string)
    ensures forall i :: 0 <= i < |r| ==> !IsPySpace(r[i])
    ensures |r| <= |s|
    ensures (forall i :: 0 <= i < |s| ==> !IsPySpace(s[i])) ==> r == s
    ensures |s| == 1 ==> r == (if IsPySpace(s[0]) then [] else s)
  {
    if s == [] then [] else (if IsPySpace(s[0]) then [] else [s[0]]) + StripWhitespace(s[1..])
  }

  lemma {:induction false} StripWhitespaceAppend(a: string, b: string)
    ensures StripWhitespace(a + b) == StripWhitespace(a) + StripWhitespace(b)
  {
    if a == [] {
      assert a + b == b;
    } else {
      var kept := if IsPySpace(a[0]) then [] else [a[0]];
      assert (a + b)[0] == a[0];
      assert (a + b)[1..] == a[1..] + b;
      StripWhitespaceAppend(a[1..], b);
      assert StripWhitespace(a + b) == kept + (StripWhitespace(a[1..]) + StripWhitespace(b));
    }
  }

  /** One character: whitespace goes, anything else stays. */
  lemma StripWhitespaceChar(c: char)
    ensures StripWhitespace([c]) == if IsPySpace(c) then [] else [c]
  {
    assert [c][1..] == [];
  }

  /** Stripping deletes the whitespace characters and keeps the others in
      order: a text is its first character followed by the rest. */
  lemma StripWhitespaceCons(c: char, rest: string)
    ensures StripWhitespace([c] + rest) == (if IsPySpace(c) then [] else [c]) + StripWhitespace(rest)
  {
    StripWhitespaceAppend([c], rest);
    StripWhitespaceChar(c);
  }

  /** The blank keys survive stripping: they are not whitespace to Python. */
  lemma BlankKeyIsNotWhitespace()
    ensures StripWhitespace(WS) == WS
  {
  }

  // ---------------------------------------------------------------------
  // Numerals: [-+]?\d+\.?\d*

  datatype Sign = Unsigned | Positive | Negative

  /** A numeral as the pattern matches it: optional sign, a non-empty digit
      run, an optional point and the digits after it. */
  datatype Numeral = Numeral(sign: Sign, whole: string, point: bool, frac: string)

  predicate NumeralOk(n: Numeral) {
    |n.whole| > 0 && AllDigits(n.whole) && AllDigits(n.frac) && (!n.point ==> n.frac == [])
  }

  function SignText(s: Sign): string {
    match s
    case Unsigned => ""
    case Positive => "+"
    case Negative => "-"
  }

  function Spell(n: Numeral): string {
    SignText(n.sign) + n.whole + (if n.point then "." else "") + n.frac
  }

  /** `rest` cannot extend the numeral: greedy matching stops before it. */
  predicate Ends(n: Numeral, rest: string) {
    rest == [] || (!IsDigit(rest[0]) && (n.point || rest[0] != '.'))
  }

  /** The digits of a numeral without its sign and point. */
  function DigitString(n: Numeral): (r: string)
    requires NumeralOk(n)
    ensures AllDigits(r) && r == n.whole + n.frac
  {
    DigitsValueAppend(n.whole, n.frac);
    n.whole + n.frac
  }

  /** `v` multiplied by ten `k` times. */
  function ScaleUp(v: real, k: nat): real
    decreases k
  {
    if k == 0 then v else ScaleUp(10.0 * v, k - 1)
  }

  /** Multiplying by ten `k` times is multiplying by `Pow10(k)`. */
  lemma {:induction false} ScaleUpIsPow10(v: real, k: nat)
    ensures ScaleUp(v, k) == Pow10(k) as real * v
    decreases k
  {
    if k > 0 {
      ScaleUpIsPow10(10.0 * v, k - 1);
      TenTimes(Pow10(k - 1) as real, v);
    }
  }

  lemma TenTimes(p: real, v: real)
    ensures p * (10.0 * v) == (10.0 * p) * v
  {
  }

  /** A decimal number given by its digits as one integer, the number of
      those digits after the point, and its sign. */
  function Decimal(digits: nat, places: nat, negative: bool): (r: real)
    ensures negative ==> r <= 0.0
    ensures !negative ==> r >= 0.0
    ensures ScaleUp(r, places) == if negative then -(digits as real) else digits as real
    ensures places == 0 ==> r == if negative then -(digits as real) else digits as real
    decreases places
  {
    if places == 0 then
      (if negative then -(digits as real) else digits as real)
    else
      var shifted := Decimal(digits, places - 1, negative);
      assert 10.0 * (shifted / 10.0) == shifted;
      shifted / 10.0
  }

  /** `float(n)` read exactly: the numeral's digits as one integer, scaled
      down by a power of ten per fraction digit, and negated after '-'. */
  function Value(n: Numeral): (r: real)
    requires NumeralOk(n)
    ensures n.sign != Negative ==> r >= 0.0
    ensures n.sign == Negative ==> r <= 0.0
    ensures n.frac == [] ==>
      r == if n.sign == Negative then -(DigitsValue(n.whole) as real) else DigitsValue(n.whole) as real
  {
    assert n.frac == [] ==> DigitString(n) == n.whole;
    Decimal(DigitsValue(DigitString(n)), |n.frac|, n.sign == Negative)
  }

  /** The value of a numeral, multiplied by ten once per fraction digit, is
      all its digits read as one integer, with its sign: the fraction digits
      count. */
  lemma ValueIsDecimal(n: Numeral)
    requires NumeralOk(n)
    ensures var digits := DigitsValue(DigitString(n)) as real;
      ScaleUp(Value(n), |n.frac|) == if n.sign == Negative then -digits else digits
  {
  }

  /** The fraction counts: "1.5" is one and a half. */
  lemma ValueKeepsFraction()
    ensures Value(Numeral(Unsigned, "1", true, "5")) == 1.5
  {
    var n := Numeral(Unsigned, "1", true, "5");
    ValueIsDecimal(n);
    assert DigitString(n) == "15";
    assert DigitsValue("15") == 15 by { assert "15"[..1] == "1"; }
  }

  /** `\d*`: the maximal run of digits at the front of `s`, and what follows. */
  function SpanDigits(s: string): (r: (string, string))
    ensures r.0 + r.1 == s && AllDigits(r.0) && (r.1 == [] || !IsDigit(r.1[0]))
  {
    if s != [] && IsDigit(s[0]) then
      var (run, rest) := SpanDigits(s[1..]);
      assert [s[0]] + run + rest == [s[0]] + (run + rest);
      ([s[0]] + run, rest)
    else
      ([], s)
  }

  /** A digit run followed by a non-digit is exactly what `SpanDigits` takes. */
  lemma SpanDigitsOf(run: string, rest: string)
    requires AllDigits(run) && (rest == [] || !IsDigit(rest[0]))
    ensures SpanDigits(run + rest) == (run, rest)
  {
    var (a, b) := SpanDigits(run + rest);
    assert a == (a + b)[..|a|] == (run + rest)[..|run|] == run;
  }

  /** `[-+]?`: the optional sign at the front of `s`, and what follows. */
  function TakeSign(s: string): (r: (Sign, string))
    ensures SignText(r.0) + r.1 == s
  {
    if s != [] && s[0] == '+' then (Positive, s[1..])
    else if s != [] && s[0] == '-' then (Negative, s[1..])
    else (Unsigned, s)
  }

  /** In front of a digit, `TakeSign` takes exactly the sign spelled there. */
  lemma TakeSignOf(sign: Sign, t: string)
    requires t != [] && IsDigit(t[0])
    ensures TakeSign(SignText(sign) + t) == (sign, t)
  {
    var s := SignText(sign) + t;
    if sign == Unsigned {
      assert s == t;
    } else {
      assert s[0] == SignText(sign)[0];
      assert s[1..] == t;
    }
  }

  /** A spelled numeral followed by `rest`, grouped the way it is parsed. */
  lemma SpellThen(n: Numeral, rest: string)
    ensures Spell(n) + rest == SignText(n.sign) + (n.whole + ((if n.point then "." else "") + (n.frac + rest)))
  {
  }

  /** The numeral the pattern matches at the front of `s`, and the rest. */
  function ParseNumeral(s: string): (r: Option<(Numeral, string)>)
    ensures r.Some? ==> NumeralOk(r.value.0) && Spell(r.value.0) + r.value.1 == s && Ends(r.value.0, r.value.1)
  {
    var signed := TakeSign(s);
    var whole := SpanDigits(signed.1);
    if whole.0 == [] then None
    else if whole.1 != [] && whole.1[0] == '.' then
      var frac := SpanDigits(whole.1[1..]);
      var n := Numeral(signed.0, whole.0, true, frac.0);
      SpellThen(n, frac.1);
      DotThen(whole.1);
      Some((n, frac.1))
    else
      var n := Numeral(signed.0, whole.0, false, "");
      SpellThen(n, whole.1);
      Some((n, whole.1))
  }

  lemma DotThen(s: string)
    requires s != [] && s[0] == '.'
    ensures s == "." + s[1..]
  {
    assert s == [s[0]] + s[1..];
  }

  /** Wherever a numeral is spelled, one is matched; when what follows cannot
      extend it, exactly that one with exactly that rest. */
  lemma ParseNumeralOf(n: Numeral, rest: string)
    requires NumeralOk(n)
    ensures ParseNumeral(Spell(n) + rest).Some?
    ensures Ends(n, rest) ==> ParseNumeral(Spell(n) + rest) == Some((n, rest))
  {
    var afterWhole := (if n.point then "." else "") + (n.frac + rest);
    SpellThen(n, rest);
    TakeSignOf(n.sign, n.whole + afterWhole);
    SpanDigitsStartsWith(n.whole, afterWhole);
    if Ends(n, rest) {
      if n.point {
        SpanDigitsOf(n.whole, afterWhole);
        SpanDigitsOf(n.frac, rest);
      } else {
        assert afterWhole == rest;
        SpanDigitsOf(n.whole, rest);
      }
    }
  }

  /** A run that starts with a digit makes `SpanDigits` take something. */
  lemma SpanDigitsStartsWith(run: string, rest: string)
    requires run != [] && IsDigit(run[0])
    ensures (run + rest)[0] == run[0] && SpanDigits(run + rest).0 != []
  {
  }

  // ---------------------------------------------------------------------
  // The equation pattern: num '=' num 'x' ('+'|'-') num

  /** The groups of a match: y, m, the operator and the constant. */
  datatype Terms = Terms(y: Numeral, m: Numeral, op: char, b: Numeral)

  predicate TermsOk(t: Terms) {
    NumeralOk(t.y) && NumeralOk(t.m) && NumeralOk(t.b) && (t.op == '+' || t.op == '-')
  }

  /** The text that the tail `x`, operator, `b` of the pattern matches. */
  function SpellFromX(op: char, b: Numeral): string {
    ['x', op] + Spell(b)
  }

  /** The text that the tail `=`, `m`, `x`, operator, `b` matches. */
  function SpellFromEquals(m: Numeral, op: char, b: Numeral): string {
    "=" + Spell(m) + SpellFromX(op, b)
  }

  /** The text of a whole equation. */
  function SpellTerms(t: Terms): string {
    Spell(t.y) + SpellFromEquals(t.m, t.op, t.b)
  }

  /** `re.match` of the equation pattern, anchored at the start only: the
      groups and the unmatched rest of the input, which is spelled after the
      equation and cannot extend its last numeral. */
  function MatchLinear(s: string): (r: Option<(Terms, string)>)
    ensures r.Some? ==> var (t, rest) := r.value;
      TermsOk(t) && SpellTerms(t) + rest == s && Ends(t.b, rest)
  {
    match ParseNumeral(s)
    case None => None
    case Some((y, afterY)) =>
      var r := MatchFromEquals(afterY, y);
      if r.Some? then
        Associate(Spell(y), SpellFromEquals(r.value.0.m, r.value.0.op, r.value.0.b), r.value.1);
        r
      else
        None
  }

  /** The pattern after `y`: `=`, then `m` and the rest. */
  function MatchFromEquals(s: string, y: Numeral): (r: Option<(Terms, string)>)
    ensures r.Some? ==> var (t, rest) := r.value;
      && t.y == y && NumeralOk(t.m) && NumeralOk(t.b) && (t.op == '+' || t.op == '-')
      && SpellFromEquals(t.m, t.op, t.b) + rest == s && Ends(t.b, rest)
  {
    if s == [] || s[0] != '=' then None
    else
      match ParseNumeral(s[1..])
      case None => None
      case Some((m, afterM)) =>
        var r := MatchFromX(afterM, y, m);
        if r.Some? then
          Regroup(s, Spell(m), SpellFromX(r.value.0.op, r.value.0.b), r.value.1);
          r
        else
          None
  }

  /** An input starting with `=` and spelling `u`, `w`, `rest` after it. */
  lemma Regroup(s: string, u: string, w: string, rest: string)
    requires s != [] && s[0] == '=' && s[1..] == u + (w + rest)
    ensures s == "=" + u + w + rest
  {
    assert s == [s[0]] + s[1..];
  }

  /** The pattern after `m`: `x`, the operator and `b`. */
  function MatchFromX(s: string, y: Numeral, m: Numeral): (r: Option<(Terms, string)>)
    ensures r.Some? ==> var (t, rest) := r.value;
      && t.y == y && t.m == m && NumeralOk(t.b) && (t.op == '+' || t.op == '-')
      && SpellFromX(t.op, t.b) + rest == s && Ends(t.b, rest)
  {
    if |s| < 2 || s[0] != 'x' || (s[1] != '+' && s[1] != '-') then None
    else
      match ParseNumeral(s[2..])
      case None => None
      case Some((b, rest)) =>
        RegroupPair(s, Spell(b), rest);
        Some((Terms(y, m, s[1], b), rest))
  }

  /** Concatenation is associative. */
  lemma Associate(p: string, u: string, rest: string)
    ensures p + (u + rest) == p + u + rest
  {
  }

  /** An input whose first two characters are followed by `u` and `rest`. */
  lemma RegroupPair(s: string, u: string, rest: string)
    requires |s| >= 2 && s[2..] == u + rest
    ensures s == [s[0], s[1]] + u + rest
  {
    assert s == [s[0], s[1]] + s[2..];
  }

  /** Wherever `x`, an operator and `b` are spelled, the last stage matches;
      exactly them when what follows cannot extend `b`. */
  lemma MatchFromXOf(y: Numeral, m: Numeral, op: char, b: Numeral, rest: string)
    requires NumeralOk(b) && (op == '+' || op == '-')
    ensures MatchFromX(SpellFromX(op, b) + rest, y, m).Some?
    ensures Ends(b, rest) ==> MatchFromX(SpellFromX(op, b) + rest, y, m) == Some((Terms(y, m, op, b), rest))
  {
    var s := SpellFromX(op, b) + rest;
    assert s[0] == 'x' && s[1] == op;
    assert s[2..] == Spell(b) + rest;
    ParseNumeralOf(b, rest);
  }

  /** Wherever `=`, `m` and the last stage are spelled, the middle stage
      matches; exactly them when what follows cannot extend `b`. */
  lemma MatchFromEqualsOf(y: Numeral, m: Numeral, op: char, b: Numeral, rest: string)
    requires NumeralOk(m) && NumeralOk(b) && (op == '+' || op == '-')
    ensures MatchFromEquals(SpellFromEquals(m, op, b) + rest, y).Some?
    ensures Ends(b, rest) ==>
      MatchFromEquals(SpellFromEquals(m, op, b) + rest, y) == Some((Terms(y, m, op, b), rest))
  {
    var s := SpellFromEquals(m, op, b) + rest;
    var tail := SpellFromX(op, b) + rest;
    assert s[0] == '=';
    assert s[1..] == Spell(m) + tail;
    ParseNumeralOf(m, tail);
    MatchFromXOf(y, m, op, b, rest);
  }

  /** Whatever follows a complete equation is ignored: the equation is
      matched, and exactly it when the rest cannot extend its last numeral. */
  lemma MatchLinearOf(t: Terms, rest: string)
    requires TermsOk(t)
    ensures MatchLinear(SpellTerms(t) + rest).Some?
    ensures Ends(t.b, rest) ==> MatchLinear(SpellTerms(t) + rest) == Some((t, rest))
  {
    var tail := SpellFromEquals(t.m, t.op, t.b) + rest;
    assert SpellTerms(t) + rest == Spell(t.y) + tail;
    ParseNumeralOf(t.y, tail);
    MatchFromEqualsOf(t.y, t.m, t.op, t.b, rest);
  }

  /** `solve_lineareq_2` accepts exactly the inputs that, once stripped,
      start with an equation of the pattern. */
  ghost predicate StartsWithEquation(s: string) {
    exists t :: TermsOk(t) && SpellTerms(t) <= s
  }

  lemma MatchLinearIff(s: string)
    ensures MatchLinear(s).Some? <==> StartsWithEquation(s)
  {
    if MatchLinear(s).Some? {
      var (t, rest) := MatchLinear(s).value;
      assert SpellTerms(t) <= s;
    }
    if StartsWithEquation(s) {
      var t :| TermsOk(t) && SpellTerms(t) <= s;
      assert s == SpellTerms(t) + s[|SpellTerms(t)|..];
      MatchLinearOf(t, s[|SpellTerms(t)|..]);
    }
  }

  /** Trailing characters after the last number are ignored. */
  lemma TrailingTextIgnored()
    ensures MatchLinear("8=5x+3abc") ==
      Some((Terms(Numeral(Unsigned, "8", false, ""), Numeral(Unsigned, "5", false, ""), '+', Numeral(Unsigned, "3", false, "")), "abc"))
  {
    var t := Terms(Numeral(Unsigned, "8", false, ""), Numeral(Unsigned, "5", false, ""), '+', Numeral(Unsigned, "3", false, ""));
    assert SpellTerms(t) + "abc" == "8=5x+3abc";
    MatchLinearOf(t, "abc");
  }

  // ---------------------------------------------------------------------
  // Solving

  datatype SolveError = InvalidEquation | ZeroDivision

  /** The second line of the steps: "m𝑥 = y - b", "m𝑥 = y + |b|" or "m𝑥 = y". */
  datatype Isolation = Minus(b: real) | PlusAbs(magnitude: real) | Bare

  /** The right-hand side the second line of the steps shows. */
  function IsolatedValue(y: real, isolation: Isolation): real {
    match isolation
    case Minus(b) => y - b
    case PlusAbs(a) => y + a
    case Bare => y
  }

  /** The four lines of the worked solution, with numbers still as values. */
  datatype Steps = Steps(equation: string, m: real, y: real, isolation: Isolation, mx: real, x: real)

  /** What `solve_lineareq_2` returns: m, x, b, y and the steps. */
  datatype Solution = Solution(m: real, x: real, b: real, y: real, steps: Steps)

  /** The signed constant: the value of `b`, negated after a minus. */
  function SignedB(t: Terms): (r: real)
    requires TermsOk(t)
    ensures t.op == '+' ==> r == Value(t.b)
    ensures t.op == '-' ==> r == -Value(t.b)
  {
    if t.op == '-' then -1.0 * Value(t.b) else Value(t.b)
  }

  /** The arithmetic of `solve_lineareq_2` once y, m and the signed b are
      known: a zero `m` raises a zero division; otherwise x solves the
      equation, every line of the steps is a true equation, and the second
      line shows b's magnitude with the matching operator. */
  function SolveFor(equation: string, y: real, m: real, b: real): (r: Result<Solution, SolveError>)
    ensures r.Failure? <==> m == 0.0
    ensures r.Failure? ==> r.error == ZeroDivision
    ensures r.Success? ==> r.value.m == m && r.value.y == y && r.value.b == b && m * r.value.x + b == y
    ensures r.Success? ==> var st := r.value.steps;
      && st.equation == equation && st.m == m && st.y == y && st.x == r.value.x
      && m * st.x == st.mx && st.mx == IsolatedValue(y, st.isolation)
    ensures r.Success? ==> var iso := r.value.steps.isolation;
      && (iso.Minus? <==> b > 0.0) && (iso.PlusAbs? <==> b < 0.0)
      && (iso.Minus? ==> iso.b == b) && (iso.PlusAbs? ==> iso.magnitude == -b)
  {
    var mx := y - b;
    if m == 0.0 then Failure(ZeroDivision)
    else
      var x := mx / m;
      DivisionSolves(m, mx);
      var isolation := if b > 0.0 then Minus(b) else if b < 0.0 then PlusAbs(-b) else Bare;
      Success(Solution(m, x, b, y, Steps(equation, m, y, isolation, mx, x)))
  }

  /** Dividing by a non-zero `m` undoes the multiplication. */
  lemma DivisionSolves(m: real, mx: real)
    requires m != 0.0
    ensures m * (mx / m) == mx
  {
  }

  /** `solve_lineareq_2`: whitespace is removed, the pattern is matched at the
      start, and an input it does not match is an invalid equation. */
  function SolveLinear(equation: string): (r: Result<Solution, SolveError>)
    ensures r == Failure(InvalidEquation) <==> MatchLinear(StripWhitespace(equation)).None?
  {
    match MatchLinear(StripWhitespace(equation))
    case None => Failure(InvalidEquation)
    case Some((t, _)) => SolveFor(equation, Value(t.y), Value(t.m), SignedB(t))
  }

  /** Solving an input that, once whitespace is stripped, spells `y=mx±b`
      followed by anything that cannot extend b, is the arithmetic on its y,
      m and signed b: a zero m raises, and otherwise x satisfies
      m x + b = y. */
  lemma SolveSpelled(equation: string, t: Terms, rest: string)
    requires TermsOk(t) && StripWhitespace(equation) == SpellTerms(t) + rest && Ends(t.b, rest)
    ensures SolveLinear(equation) == SolveFor(equation, Value(t.y), Value(t.m), SignedB(t))
  {
    MatchLinearOf(t, rest);
  }

  /** The steps as text, given how numbers are rendered. The isolation line
      starts with m and the x glyph. */
  function IsolationLine(s: Steps, show: real -> string): (r: string)
    ensures |r| > |show(s.m)| && r[..|show(s.m)|] == show(s.m) && r[|show(s.m)|] == XChar
    ensures (forall v :: '\n' !in show(v)) ==> '\n' !in r
  {
    show(s.m) + X + " = " + show(s.y) +
      match s.isolation
      case Minus(b) => " - " + show(b)
      case PlusAbs(a) => " + " + show(a)
      case Bare => ""
  }

  /** The division line: the x glyph equals m·x over m. */
  function DivisionLine(s: Steps, show: real -> string): (r: string)
    ensures |r| >= 4 + |show(s.m)| && r[..4] == X + " = " && r[|r| - |show(s.m)|..] == show(s.m)
    ensures (forall v :: '\n' !in show(v)) ==> '\n' !in r
  {
    X + " = " + show(s.mx) + " / " + show(s.m)
  }

  /** The solution line: the x glyph equals x. */
  function SolutionLine(s: Steps, show: real -> string): (r: string)
    ensures |r| >= 4 && r[..4] == X + " = " && r[4..] == show(s.x)
    ensures (forall v :: '\n' !in show(v)) ==> '\n' !in r
  {
    X + " = " + show(s.x)
  }

  /** The steps: the equation as typed, then the three lines above. */
  function StepsText(s: Steps, show: real -> string): (r: string)
    ensures |r| > |s.equation| && r[..|s.equation|] == s.equation && r[|s.equation|] == '\n'
  {
    JoinLines([s.equation, IsolationLine(s, show), DivisionLine(s, show), SolutionLine(s, show)])
  }

  /** The steps are four lines: the equation as typed, the isolation of
      m𝑥, the division, and the solution. */
  lemma StepsAreFourLines(s: Steps, show: real -> string)
    requires '\n' !in s.equation
    requires forall v :: '\n' !in show(v)
    ensures Lines(StepsText(s, show)) ==
      [s.equation, IsolationLine(s, show), DivisionLine(s, show), SolutionLine(s, show)]
  {
    LinesOfJoin([s.equation, IsolationLine(s, show), DivisionLine(s, show), SolutionLine(s, show)]);
  }

  // ---------------------------------------------------------------------
  // The keypad view

  /** What one key press leads to: rejected by the gate, the keypad echoing
      the buffer, a solution, the invalid-equation message, or the zero
      division that escapes the callback. */
  datatype CalcResponse =
    | Rejected(notice: string)
    | Echo(display: string)
    | Solved(solution: Solution)
    | Invalid(content: string)
    | ZeroDivisionRaised

  function InvalidContent(equation: string): string {
    "`" + equation + "` is an invalid einear equation, please try again."
  }

  /** `CalcButton.callback` for a key labelled `text`: the new buffer and the
      response. */
  function Callback(equation: string, text: string): (r: (string, CalcResponse))
    ensures text == Enter ==> r.0 == equation && !r.1.Echo?
    ensures text != Enter ==> r.1.Echo?
    ensures text == Del ==> r.1.display != []
    ensures r.1.Invalid? ==> r.1.content == InvalidContent(equation)
  {
    if text == Enter then
      match SolveLinear(equation)
      case Success(sol) => (equation, Solved(sol))
      case Failure(InvalidEquation) => (equation, Invalid(InvalidContent(equation)))
      case Failure(ZeroDivision) => (equation, ZeroDivisionRaised)
    else if text == Del then
      var e := KeyEdit(equation, text);
      (e, Echo(if Display(e) == [] then WS else Display(e)))
    else
      var e := KeyEdit(equation, text);
      (e, Echo(Display(e)))
  }

  /** Enter never changes the buffer; every other key edits it and the
      keypad shows the edited buffer (a blank key when it is empty). */
  lemma CallbackEffect(equation: string, text: string)
    ensures text == Enter ==> Callback(equation, text).0 == equation
    ensures text == Enter ==>
      (Callback(equation, text).1.Invalid? <==> !StartsWithEquation(StripWhitespace(equation)))
    ensures text != Enter ==>
      var (e, resp) := Callback(equation, text);
      && e == KeyEdit(equation, text)
      && resp.Echo? && (e != [] && XChar !in e ==> Undisplay(resp.display) == e)
  {
    MatchLinearIff(StripWhitespace(equation));
    if text != Enter {
      var e := KeyEdit(equation, text);
      if e != [] && XChar !in e {
        DisplayRoundTrip(e);
      }
    }
  }

  /** Enter on a buffer that spells an equation: a zero m escapes the
      callback as a zero division (only an invalid equation is caught), and
      otherwise the solution `SolveFor` computes from y, m and b is shown. */
  lemma EnterOutcome(equation: string, t: Terms, rest: string)
    requires TermsOk(t) && StripWhitespace(equation) == SpellTerms(t) + rest && Ends(t.b, rest)
    ensures Value(t.m) == 0.0 ==> Callback(equation, Enter) == (equation, ZeroDivisionRaised)
    ensures Value(t.m) != 0.0 ==>
      && SolveLinear(equation).Success?
      && Callback(equation, Enter) == (equation, Solved(SolveLinear(equation).value))
      && SolveLinear(equation) == SolveFor(equation, Value(t.y), Value(t.m), SignedB(t))
  {
    SolveSpelled(equation, t, rest);
    EnterByValues(equation, Value(t.y), Value(t.m), SignedB(t));
  }

  /** Enter, once solving is known to be the arithmetic on y, m and b. */
  lemma EnterByValues(equation: string, y: real, m: real, b: real)
    requires SolveLinear(equation) == SolveFor(equation, y, m, b)
    ensures m == 0.0 ==> Callback(equation, Enter) == (equation, ZeroDivisionRaised)
    ensures m != 0.0 ==>
      && SolveLinear(equation).Success?
      && Callback(equation, Enter) == (equation, Solved(SolveLinear(equation).value))
  {
    EnterShowsResult(equation);
  }

  /** Enter reports what solving the buffer gives. */
  lemma EnterShowsResult(equation: string)
    ensures SolveLinear(equation) == Failure(ZeroDivision) ==> Callback(equation, Enter).1 == ZeroDivisionRaised
    ensures SolveLinear(equation).Success? ==> Callback(equation, Enter).1 == Solved(SolveLinear(equation).value)
    ensures Callback(equation, Enter).0 == equation
  {
  }

  /** `LinearUI`: an author-only keypad over an equation buffer. */
  class LinearUI {
    const author: Utils.User
    const keys: seq<CalcKey>
    var equation: string

    constructor (author: Utils.User)
      ensures this.author == author && keys == LinearKeypad() && equation == ""
    {
      this.author := author;
      equation := "";
      var ks: seq<CalcKey> := [];
      for i := 1 to 4
        invariant ks == LinearKeypad()[..i - 1]
      {
        ks := ks + [CalcKey(NatToString(i), Grey, 0)];
      }
      for i := 4 to 7
        invariant ks == LinearKeypad()[..i - 1]
      {
        ks := ks + [CalcKey(NatToString(i), Grey, 1)];
      }
      for i := 7 to 10
        invariant ks == LinearKeypad()[..i - 1]
      {
        ks := ks + [CalcKey(NatToString(i), Grey, 2)];
      }
      ks := ks + [CalcKey(".", Grey, 3), CalcKey("0", Grey, 3), CalcKey("=", Blurple, 3)];
      ks := ks + [CalcKey("+", Red, 0), CalcKey("-", Red, 1)];
      ks := ks + [CalcKey(X, Blurple, 2), CalcKey(Enter, Green, 3)];
      ks := ks + [CalcKey(Del, Red, 0)];
      for i := 1 to 4
        invariant ks == LinearKeypad()[..16 + i]
      {
        ks := ks + [CalcKey(WS, Grey, i)];
      }
      keys := ks;
    }

    /** A press of the key labelled `text` by `actor`. */
    method Interact(actor: Utils.User, text: string) returns (r: CalcResponse)
      modifies this
      ensures actor != author ==>
        equation == old(equation) && r == Rejected(Utils.InteractionCheck(author, actor).notice)
      ensures actor == author ==> (equation, r) == Callback(old(equation), text)
    {
      var gate := Utils.InteractionCheck(author, actor);
      if gate.Reject? {
        return Rejected(gate.notice);
      }
      if text == Enter {
        var solved := SolveLinear(equation);
        match solved
        case Success(sol) => r := Solved(sol);
        case Failure(InvalidEquation) => r := Invalid(InvalidContent(equation));
        case Failure(ZeroDivision) => r := ZeroDivisionRaised;
      } else if text == Del {
        if equation != [] {
          equation := equation[..|equation| - 1];
        }
        var shown := Display(equation);
        r := Echo(if shown == [] then WS else shown);
      } else {
        var term := if text == X then "x" else text;
        equation := equation + term;
        r := Echo(Display(equation));
      }
    }
  }
}

=== FILE: text.dfy ===
/** Character and string helpers shared by the model: ASCII decimal digits,
    Python's `str(int)` rendering, `str.replace` and `str.split('\n')`. */
module Text {

  predicate IsDigit(c: char) {
    '0' <= c <= '9'
  }

  predicate AllDigits(s: string) {
    forall i :: 0 <= i < |s| ==> IsDigit(s[i])
  }

  function DigitChar(d: nat): (c: char)
    requires d < 10
    ensures IsDigit(c) && c as int - '0' as int == d
  {
    ('0' as int + d) as char
  }

  function DigitValue(c: char): (d: nat)
    requires IsDigit(c)
    ensures d < 10 && DigitChar(d) == c
  {
    c as int - '0' as int
  }

  /** The value of a string of decimal digits, most significant first. */
  function DigitsValue(s: string): nat
    requires AllDigits(s)
  {
    if s == [] then 0 else 10 * DigitsValue(s[..|s| - 1]) + DigitValue(s[|s| - 1])
  }

  function Pow10(k: nat): (p: nat)
    ensures p >= 1
  {
    if k == 0 then 1 else 10 * Pow10(k - 1)
  }

  /** The digits of `a` followed by those of `b`: `a` shifted left by `|b|`
      places, plus `b`. */
  lemma {:induction false} DigitsValueAppend(a: string, b: string)
    requires AllDigits(a) && AllDigits(b)
    ensures AllDigits(a + b)
    ensures DigitsValue(a + b) == DigitsValue(a) * Pow10(|b|) + DigitsValue(b)
    decreases |b|
  {
    var ab := a + b;
    assert AllDigits(ab) by {
      forall i | 0 <= i < |ab| ensures IsDigit(ab[i]) {
        if i < |a| { assert ab[i] == a[i]; } else { assert ab[i] == b[i - |a|]; }
      }
    }
    if b == [] {
      assert ab == a;
    } else {
      var front := b[..|b| - 1];
      assert ab[..|ab| - 1] == a + front;
      assert ab[|ab| - 1] == b[|b| - 1];
      DigitsValueAppend(a, front);
      ShiftStep(DigitsValue(a), Pow10(|front|), DigitsValue(front), DigitValue(b[|b| - 1]));
    }
  }

  lemma ShiftStep(x: nat, p: nat, y: nat, d: nat)
    ensures 10 * (x * p + y) + d == x * (10 * p) + (10 * y + d)
  {
  }

  /** Decimal rendering of a natural number, as Python's `str` writes it. */
  function NatToString(n: nat): (r: string)
    ensures |r| > 0 && AllDigits(r)
  {
    if n < 10 then [DigitChar(n)] else NatToString(n / 10) + [DigitChar(n % 10)]
  }

  /** Decimal rendering of an integer, with a leading '-' when negative. */
  function IntToString(i: int): (r: string)
    ensures |r| > 0
    ensures i >= 0 <==> r[0] != '-'
  {
    if i < 0 then "-" + NatToString(-i) else NatToString(i)
  }

  /** Reading back the rendering of `n` gives `n`, and the rendering has no
      leading zero. */
  lemma {:induction false} NatToStringRoundTrip(n: nat)
    ensures DigitsValue(NatToString(n)) == n
    ensures NatToString(n)[0] == '0' ==> n == 0
  {
    if n >= 10 {
      NatToStringRoundTrip(n / 10);
      var s := NatToString(n);
      assert s[..|s| - 1] == NatToString(n / 10);
      assert s[0] == NatToString(n / 10)[0];
    }
  }

  /** Two numbers render alike only when they are equal. */
  lemma IntToStringInjective(i: int, j: int)
    requires IntToString(i) == IntToString(j)
    ensures i == j
  {
    if i < 0 {
      assert j < 0;
      assert NatToString(-i) == IntToString(i)[1..] == IntToString(j)[1..] == NatToString(-j);
      NatToStringRoundTrip(-i);
      NatToStringRoundTrip(-j);
    } else {
      assert j >= 0;
      NatToStringRoundTrip(i);
      NatToStringRoundTrip(j);
    }
  }

  /** Python's `str.replace(pattern, replacement)`: every occurrence, scanning left to
      right and never overlapping. */
  function Replace(s: string, pattern: string, replacement: string): (r: string)
    requires pattern != []
    ensures replacement == pattern ==> r == s
    ensures |s| < |pattern| ==> r == s
    decreases |s|
  {
    if |s| < |pattern| then s
    else if s[..|pattern|] == pattern then
      assert s == s[..|pattern|] + s[|pattern|..];
      replacement + Replace(s[|pattern|..], pattern, replacement)
    else
      assert s == [s[0]] + s[1..];
      [s[0]] + Replace(s[1..], pattern, replacement)
  }

  /** Index of the first newline in `s`, when there is one. */
  function FirstNewline(s: string): (k: nat)
    requires '\n' in s
    ensures k < |s| && s[k] == '\n' && '\n' !in s[..k]
  {
    if s[0] == '\n' then 0 else 1 + FirstNewline(s[1..])
  }

  /** Python's `s.split('\n')`: the pieces between newline characters. */
  function Lines(s: string): (r: seq<string>)
    ensures |r| >= 1
    decreases |s|
  {
    if '\n' !in s then [s]
    else
      var k := FirstNewline(s);
      [s[..k]] + Lines(s[k + 1..])
  }

  lemma LinesCons(a: string, b: string)
    requires '\n' !in a
    ensures Lines(a + "\n" + b) == [a] + Lines(b)
  {
    var s := a + "\n" + b;
    assert s[|a|] == '\n';
    var k := FirstNewline(s);
    assert k == |a|;
    assert s[..k] == a;
    assert s[k + 1..] == b;
  }

  /** `'\n'.join(lines)`. */
  function JoinLines(lines: seq<string>): string
    requires |lines| > 0
    decreases |lines|
  {
    if |lines| == 1 then lines[0] else lines[0] + "\n" + JoinLines(lines[1..])
  }

  /** Splitting joined lines that hold no newline gives them back. */
  lemma {:induction false} LinesOfJoin(lines: seq<string>)
    requires |lines| > 0 && forall i :: 0 <= i < |lines| ==> '\n' !in lines[i]
    ensures Lines(JoinLines(lines)) == lines
    decreases |lines|
  {
    if |lines| > 1 {
      LinesCons(lines[0], JoinLines(lines[1..]));
      LinesOfJoin(lines[1..]);
      assert lines == [lines[0]] + lines[1..];
    }
  }
}

=== FILE: utils.dfy ===
/** Model of bot/utils.py: `truncate`, the author-only interaction gate
    (`AuthorOnlyView.interaction_check`) and the paginator (`PaginatorView`
    with its five buttons, and `Paginator`). */
module Utils {
  import opened Wrappers
  import opened Text

  // ---------------------------------------------------------------------
  // truncate

  /** The default `limit` of `truncate`: the platform's message length cap. */
  const DefaultLimit := 2000
  /** The number of characters `truncate` keeps, whatever the limit. */
  const KeptPrefix := 1997

  /** `truncate(content, limit)`: content longer than `limit` is cut to its
      first 1997 characters (fewer when shorter) followed by "...". */
  function Truncate(content: string, limit: int): (r: string)
    ensures |content| <= limit ==> r == content
    ensures |content| > limit ==>
      && |r| == (if |content| < KeptPrefix then |content| else KeptPrefix) + 3
      && r[..|r| - 3] == content[..|r| - 3]
      && r[|r| - 3..] == "..."
  {
    if |content| > limit then
      (if |content| < KeptPrefix then content else content[..KeptPrefix]) + "..."
    else
      content
  }

  /** With the default limit the result always fits in a message, and an
      over-long content becomes exactly 2000 characters: its first 1997
      followed by an ellipsis. */
  lemma TruncateDefaultFits(content: string)
    ensures |Truncate(content, DefaultLimit)| <= DefaultLimit
    ensures |content| > DefaultLimit ==>
      && |Truncate(content, DefaultLimit)| == DefaultLimit
      && Truncate(content, DefaultLimit)[..KeptPrefix] == content[..KeptPrefix]
  {
  }

  /** With a limit below 1997 the result can be longer than the limit, and
      even longer than the content itself. */
  lemma TruncateOverrunsSmallLimit()
    ensures var content := seq(150, _ => 'a');
      |Truncate(content, 100)| == 153 > 100
  {
    var content := seq(150, _ => 'a');
    assert |content| > 100;
  }

  /** `truncate` as the `limit` parameter evidently intends it: keep
      `limit - 3` characters and append "...", so the result never exceeds
      `limit`. */
  function TruncateWithin(content: string, limit: nat): (r: string)
    requires limit >= 3
    ensures |r| <= limit
    ensures |content| <= limit ==> r == content
    ensures |content| > limit ==>
      |r| == limit && r[..limit - 3] == content[..limit - 3] && r[limit - 3..] == "..."
  {
    if |content| > limit then content[..limit - 3] + "..." else content
  }

  /** At the default limit, the intended and the written truncation agree. */
  lemma TruncateWithinAgreesAtDefault(content: string)
    ensures TruncateWithin(content, DefaultLimit) == Truncate(content, DefaultLimit)
  {
  }

  // ---------------------------------------------------------------------
  // The author-only gate

  /** A chat user; users compare equal by their id. */
  datatype User = User(id: nat)

  /** How the platform writes a mention of a user. */
  function Mention(u: User): string {
    "<@" + NatToString(u.id) + ">"
  }

  /** The verdict of the gate: the event reaches the handler, or it is
      dropped and the actor gets an ephemeral notice. */
  datatype Gate = Allow | Reject(notice: string)

  /** `AuthorOnlyView.interaction_check`. */
  function InteractionCheck(author: User, actor: User): (g: Gate)
    ensures g.Allow? <==> actor == author
    ensures g.Reject? ==> g.notice == "This interaction can only be used by " + Mention(author)
  {
    if actor != author then Reject("This interaction can only be used by " + Mention(author))
    else Allow
  }

  // ---------------------------------------------------------------------
  // The paginator's controls and state

  const RewindEmoji := "<:rewind:879025103747317792>"
  const FastForwardEmoji := "<:ffw:879025149372932128>"
  const ArrowLeftLabel := "\U{25C0}"
  const ArrowRightLabel := "\U{25B6}"
  const StopLabel := "\U{2589}" + " stop"

  /** A component of a view: a button (with an emoji or a text label) or
      another component such as a select menu added by a feature module. */
  datatype Item =
    | Button(emoji: Option<string>, text: Option<string>, disabled: bool)
    | Select(placeholder: string, disabled: bool)

  /** The six buttons of a new `PaginatorView`, in declaration order:
      rewind, left, the page sign (disabled), right, fast-forward, stop. */
  function InitialChildren(): seq<Item> {
    [ Button(Some(RewindEmoji), None, false),
      Button(None, Some(ArrowLeftLabel), false),
      Button(None, Some("Page 1"), true),
      Button(None, Some(ArrowRightLabel), false),
      Button(Some(FastForwardEmoji), None, false),
      Button(None, Some(StopLabel), false) ]
  }

  /** The six declared buttons come first; added components follow. */
  predicate WellFormed(children: seq<Item>) {
    |children| >= 6 && forall i :: 0 <= i < 6 ==> children[i].Button?
  }

  /** The text of the page sign for a counter. */
  function PageLabel(counter: int): string {
    "Page " + IntToString(counter + 1)
  }

  /** Different counters give different page signs. */
  lemma PageLabelsDistinct(c: int, d: int)
    requires c != d
    ensures PageLabel(c) != PageLabel(d)
  {
    if PageLabel(c) == PageLabel(d) {
      assert IntToString(c + 1) == PageLabel(c)[5..] == PageLabel(d)[5..] == IntToString(d + 1);
      IntToStringInjective(c + 1, d + 1);
    }
  }

  /** `_update_sign`: relabel `children[2]`, the page sign. */
  function WithPageLabel(children: seq<Item>, counter: int): (r: seq<Item>)
    requires WellFormed(children)
    ensures WellFormed(r) && |r| == |children|
    ensures r[2].text == Some(PageLabel(counter)) && r[2].disabled == children[2].disabled
    ensures forall i :: 0 <= i < |r| && i != 2 ==> r[i] == children[i]
  {
    children[2 := children[2].(text := Some(PageLabel(counter)))]
  }

  function Disable(item: Item): Item {
    if item.Button? then Button(item.emoji, item.text, true) else item
  }

  /** What the loop of `stop_button` leaves: every button disabled. */
  function DisableButtons(children: seq<Item>): (r: seq<Item>)
    ensures |r| == |children|
    ensures forall i :: 0 <= i < |r| && children[i].Button? ==>
      r[i].Button? && r[i].emoji == children[i].emoji && r[i].text == children[i].text && r[i].disabled
    ensures forall i :: 0 <= i < |r| && !children[i].Button? ==> r[i] == children[i]
  {
    seq(|children|, i requires 0 <= i < |children| => Disable(children[i]))
  }

  /** Python's `s[i]`, negative indices counting from the end; `None` is an
      `IndexError`. */
  function PyIndex<T>(s: seq<T>, i: int): (r: Option<T>)
    ensures r.Some? <==> -|s| <= i < |s|
    ensures r.Some? ==> r.value == if i < 0 then s[|s| + i] else s[i]
  {
    if 0 <= i < |s| then Some(s[i])
    else if -|s| <= i < 0 then Some(s[|s| + i])
    else None
  }

  /** A message as the paginator last rendered it: a page and the controls
      attached to it. */
  datatype Message<T> = Message(page: T, controls: seq<Item>)

  /** The fields of a `PaginatorView` that its handlers change; `shown` is the
      message as last sent or edited. */
  datatype ViewState<T> = ViewState(counter: int, children: seq<Item>, stopped: bool, shown: Option<Message<T>>)

  function InitialState<T>(): ViewState<T> {
    ViewState(0, InitialChildren(), false, None)
  }

  /** The five buttons a user can press. */
  datatype Action = Rewind | ArrowLeft | ArrowRight | FastForward | StopButton

  /** What became of one interaction: rejected by the gate, never routed
      (the view is stopped), not sent at all (the message shows the button
      disabled, so it cannot be clicked), handled, or handled until an
      `IndexError` that the handler swallowed or let escape. */
  datatype Response = Rejected(notice: string) | NotRouted | Unclickable | Done | IndexErrorSwallowed | IndexErrorRaised

  /** The position of each button among the view's components. */
  function ControlIndex(a: Action): nat {
    match a
    case Rewind => 0
    case ArrowLeft => 1
    case ArrowRight => 3
    case FastForward => 4
    case StopButton => 5
  }

  /** The message on screen shows the button for `a` disabled. */
  predicate ShownDisabled<T>(st: ViewState<T>, a: Action) {
    && st.shown.Some?
    && ControlIndex(a) < |st.shown.value.controls|
    && st.shown.value.controls[ControlIndex(a)].disabled
  }

  /** `interaction.message.edit(embed=page, view=self)`; a missing page is the
      `IndexError` raised while evaluating `entries[...]`. */
  function EditTo<T>(st: ViewState<T>, page: Option<T>, missing: Response): (r: (ViewState<T>, Response))
    ensures r.0.counter == st.counter && r.0.children == st.children && r.0.stopped == st.stopped
    ensures page.None? ==> r == (st, missing)
    ensures page.Some? ==> r.0.shown == Some(Message(page.value, st.children)) && r.1 == Done
  {
    match page
    case None => (st, missing)
    case Some(p) => (st.(shown := Some(Message(p, st.children))), Done)
  }

  /** The button handlers of `PaginatorView`, as written. */
  function Press<T>(entries: seq<T>, st: ViewState<T>, a: Action): (r: (ViewState<T>, Response))
    requires WellFormed(st.children)
    ensures WellFormed(r.0.children) && |r.0.children| == |st.children|
    ensures r.0.stopped <==> st.stopped || (a == StopButton && PyIndex(entries, st.counter).Some?)
    ensures r.1 == Done || r.1 == IndexErrorSwallowed || r.1 == IndexErrorRaised
  {
    match a
    case Rewind =>
      EditTo(st.(counter := 0, children := WithPageLabel(st.children, 0)), PyIndex(entries, 0), IndexErrorRaised)
    case ArrowLeft =>
      if st.counter == 0 then (st, Done)
      else
        var c := st.counter - 1;
        EditTo(st.(counter := c, children := WithPageLabel(st.children, c)), PyIndex(entries, c), IndexErrorSwallowed)
    case ArrowRight =>
      if st.counter == |entries| then (st, Done)
      else
        var c := st.counter + 1;
        EditTo(st.(counter := c, children := WithPageLabel(st.children, c)), PyIndex(entries, c), IndexErrorSwallowed)
    case FastForward =>
      var c := |entries| - 1;
      EditTo(st.(counter := c, children := WithPageLabel(st.children, c)), PyIndex(entries, -1), IndexErrorRaised)
    case StopButton =>
      var off := st.(children := DisableButtons(st.children));
      match PyIndex(entries, st.counter)
      case None => (off, IndexErrorRaised)
      case Some(p) => (off.(shown := Some(Message(p, off.children)), stopped := true), Done)
  }

  /** One interaction with the view: a stopped view no longer receives
      events, and a button the message shows disabled cannot be pressed;
      otherwise the gate runs first and only the author reaches the
      handler. */
  function Dispatch<T>(entries: seq<T>, author: User, actor: User, st: ViewState<T>, a: Action): (r: (ViewState<T>, Response))
    requires WellFormed(st.children)
    ensures WellFormed(r.0.children)
    ensures actor != author ==> r.0 == st
    ensures r.0.stopped ==> st.stopped || (actor == author && a == StopButton)
  {
    if st.stopped then (st, NotRouted)
    else if ShownDisabled(st, a) then (st, Unclickable)
    else
      match InteractionCheck(author, actor)
      case Reject(notice) => (st, Rejected(notice))
      case Allow => Press(entries, st, a)
  }

  // ---------------------------------------------------------------------
  // Properties of the handlers

  /** The state every handler keeps for a non-empty list of pages: the sign
      reads "Page counter+1", the counter lies in 0..len(entries) (one past
      the last page is reachable), and the page on screen is the current one,
      except one past the end, where the last page stays on screen. */
  ghost predicate Inv<T>(entries: seq<T>, st: ViewState<T>) {
    && WellFormed(st.children)
    && st.children[2].text == Some(PageLabel(st.counter))
    && 0 <= st.counter <= |entries|
    && (st.shown.Some? ==>
          if st.counter < |entries| then st.shown.value.page == entries[st.counter]
          else 0 < st.counter && st.shown.value.page == entries[st.counter - 1])
  }

  /** A new view over non-empty pages, once `start` has sent the first page,
      satisfies the invariant. */
  lemma StartEstablishesInv<T>(entries: seq<T>)
    requires |entries| > 0
    ensures Inv(entries, InitialState<T>())
    ensures Inv(entries, InitialState<T>().(shown := Some(Message(entries[0], InitialChildren()))))
  {
    assert PageLabel(0) == "Page 1";
  }

  lemma {:induction false} PressPreservesInv<T>(entries: seq<T>, st: ViewState<T>, a: Action)
    requires |entries| > 0 && Inv(entries, st)
    ensures Inv(entries, Press(entries, st, a).0)
  {
    match a
    case Rewind =>
    case ArrowLeft =>
    case ArrowRight =>
    case FastForward =>
    case StopButton =>
      var r := Press(entries, st, a).0;
      assert r.children[2] == Disable(st.children[2]);
  }

  lemma DispatchPreservesInv<T>(entries: seq<T>, author: User, actor: User, st: ViewState<T>, a: Action)
    requires |entries| > 0 && Inv(entries, st)
    ensures Inv(entries, Dispatch(entries, author, actor, st, a).0)
  {
    if !st.stopped && actor == author {
      PressPreservesInv(entries, st, a);
    }
  }

  /** The gate: an event from anyone but the author changes nothing and is
      rejected with a notice naming the author (or not routed at all once
      the view is stopped, or never sent for a button shown disabled); the
      author's events on a clickable button reach the handler. */
  lemma GateDecides<T>(entries: seq<T>, author: User, actor: User, st: ViewState<T>, a: Action)
    requires WellFormed(st.children)
    ensures actor != author ==> Dispatch(entries, author, actor, st, a).0 == st
    ensures !st.stopped && ShownDisabled(st, a) ==> Dispatch(entries, author, actor, st, a) == (st, Unclickable)
    ensures actor != author && !st.stopped && !ShownDisabled(st, a) ==>
      Dispatch(entries, author, actor, st, a).1 == Rejected("This interaction can only be used by " + Mention(author))
    ensures actor == author && !st.stopped && !ShownDisabled(st, a) ==>
      Dispatch(entries, author, actor, st, a) == Press(entries, st, a)
  {
  }

  /** `rewind` moves to the first page and shows it; `fast_forward` moves to
      the last page and shows it. */
  lemma RewindAndFastForward<T>(entries: seq<T>, st: ViewState<T>)
    requires WellFormed(st.children) && |entries| > 0
    ensures var (r, resp) := Press(entries, st, Rewind);
      && r.counter == 0 && r.children[2].text == Some("Page 1") && resp == Done
      && r.shown == Some(Message(entries[0], r.children)) && r.stopped == st.stopped
    ensures var (r, resp) := Press(entries, st, FastForward);
      && r.counter == |entries| - 1 && r.children[2].text == Some(PageLabel(|entries| - 1)) && resp == Done
      && r.shown == Some(Message(entries[|entries| - 1], r.children)) && r.stopped == st.stopped
  {
    assert PageLabel(0) == "Page 1";
  }

  /** `arrow_left` does nothing on the first page; elsewhere it steps back
      exactly one page and shows it. */
  lemma ArrowLeftSteps<T>(entries: seq<T>, st: ViewState<T>)
    requires Inv(entries, st)
    ensures st.counter == 0 ==> Press(entries, st, ArrowLeft) == (st, Done)
    ensures st.counter > 0 ==>
      var (r, resp) := Press(entries, st, ArrowLeft);
      && r.counter == st.counter - 1 && resp == Done
      && r.shown == Some(Message(entries[st.counter - 1], r.children))
      && r.children[2].text == Some(PageLabel(st.counter - 1))
  {
  }

  /** `arrow_right` does nothing one past the last page; elsewhere it steps
      forward exactly one page, and onto the position one past the last page
      the `IndexError` is swallowed and nothing new is shown. */
  lemma ArrowRightSteps<T>(entries: seq<T>, st: ViewState<T>)
    requires Inv(entries, st)
    ensures st.counter == |entries| ==> Press(entries, st, ArrowRight) == (st, Done)
    ensures st.counter < |entries| - 1 ==>
      var (r, resp) := Press(entries, st, ArrowRight);
      && r.counter == st.counter + 1 && resp == Done
      && r.shown == Some(Message(entries[st.counter + 1], r.children))
    ensures st.counter == |entries| - 1 ==>
      var (r, resp) := Press(entries, st, ArrowRight);
      && r.counter == |entries| && resp == IndexErrorSwallowed
      && r.shown == st.shown && r.children[2].text == Some(PageLabel(|entries|))
  {
  }

  /** `stop_button` disables every button, leaves other components as they
      were, then shows the current page and stops the view; one past the last
      page the `IndexError` comes after the buttons are disabled and before
      the view stops. */
  lemma StopButtonEffect<T>(entries: seq<T>, st: ViewState<T>)
    requires Inv(entries, st)
    ensures var (r, resp) := Press(entries, st, StopButton);
      && |r.children| == |st.children| && r.counter == st.counter
      && (forall i :: 0 <= i < |r.children| && st.children[i].Button? ==>
            r.children[i] == Button(st.children[i].emoji, st.children[i].text, true))
      && (forall i :: 0 <= i < |r.children| && !st.children[i].Button? ==> r.children[i] == st.children[i])
    ensures st.counter < |entries| ==>
      var (r, resp) := Press(entries, st, StopButton);
      r.stopped && resp == Done && r.shown == Some(Message(entries[st.counter], r.children))
    ensures st.counter == |entries| ==>
      var (r, resp) := Press(entries, st, StopButton);
      r.stopped == st.stopped && resp == IndexErrorRaised && r.shown == st.shown
  {
  }

  /** Once stopped, a view ignores every further event. */
  lemma StoppedIsTerminal<T>(entries: seq<T>, author: User, actor: User, st: ViewState<T>, a: Action)
    requires WellFormed(st.children) && st.stopped
    ensures Dispatch(entries, author, actor, st, a) == (st, NotRouted)
  {
  }

  /** Presses of `arrow_right` applied in a row. */
  function RightTimes<T>(entries: seq<T>, st: ViewState<T>, k: nat): (r: ViewState<T>)
    requires WellFormed(st.children)
    ensures WellFormed(r.children)
    decreases k
  {
    if k == 0 then st else RightTimes(entries, Press(entries, st, ArrowRight).0, k - 1)
  }

  /** From page `c`, `k` presses of the right arrow reach page `c + k`, up to
      one past the last page, and never beyond it. */
  lemma {:induction false} RightTimesReaches<T>(entries: seq<T>, st: ViewState<T>, k: nat)
    requires Inv(entries, st)
    ensures Inv(entries, RightTimes(entries, st, k))
    ensures RightTimes(entries, st, k).counter ==
      if st.counter + k <= |entries| then st.counter + k else |entries|
    decreases k
  {
    if k > 0 {
      var next := Press(entries, st, ArrowRight).0;
      assert Inv(entries, next) && next.counter == if st.counter < |entries| then st.counter + 1 else |entries|;
      RightTimesReaches(entries, next, k - 1);
    }
  }

  // ---------------------------------------------------------------------
  // After a failed stop

  predicate AllButtonsDisabled(children: seq<Item>) {
    forall i :: 0 <= i < |children| && children[i].Button? ==> children[i].disabled
  }

  /** The state a failed stop leaves: the buttons are disabled in the view,
      the view still runs, and either the counter is still one past the last
      page or the message already shows every button disabled. */
  ghost predicate Locked<T>(entries: seq<T>, st: ViewState<T>) {
    && Inv(entries, st)
    && !st.stopped
    && AllButtonsDisabled(st.children)
    && (|| st.counter == |entries|
        || (st.shown.Some? && WellFormed(st.shown.value.controls) && AllButtonsDisabled(st.shown.value.controls)))
  }

  /** Stop pressed one past the last page raises `IndexError` after
      disabling the buttons, and leaves the view locked. */
  lemma FailedStopLocks<T>(entries: seq<T>, st: ViewState<T>)
    requires |entries| > 0 && Inv(entries, st) && st.counter == |entries| && !st.stopped
    ensures Press(entries, st, StopButton).1 == IndexErrorRaised
    ensures Locked(entries, Press(entries, st, StopButton).0)
  {
    PressPreservesInv(entries, st, StopButton);
  }

  /** No event unlocks a locked view: any press the author can still make
      shows every button disabled, and stop keeps raising. */
  lemma LockedStays<T>(entries: seq<T>, author: User, actor: User, st: ViewState<T>, a: Action)
    requires |entries| > 0 && Locked(entries, st)
    ensures Locked(entries, Dispatch(entries, author, actor, st, a).0)
  {
    if !ShownDisabled(st, a) && actor == author {
      PressPreservesInv(entries, st, a);
      var r := Press(entries, st, a).0;
      assert AllButtonsDisabled(r.children) by {
        forall i | 0 <= i < |r.children| && r.children[i].Button?
          ensures r.children[i].disabled
        {
          if i != 2 {
            assert r.children[i] == st.children[i] || r.children[i] == Disable(st.children[i]);
          }
        }
      }
    }
  }

  /** A sequence of events from the given actors. */
  function Run<T>(entries: seq<T>, author: User, events: seq<(User, Action)>, st: ViewState<T>): (r: ViewState<T>)
    requires WellFormed(st.children)
    ensures WellFormed(r.children)
    decreases |events|
  {
    if events == [] then st
    else Run(entries, author, events[1..], Dispatch(entries, author, events[0].0, st, events[0].1).0)
  }

  /** Once locked, the view never stops, whatever anyone presses. */
  lemma {:induction false} LockedNeverStops<T>(entries: seq<T>, author: User, events: seq<(User, Action)>, st: ViewState<T>)
    requires |entries| > 0 && Locked(entries, st)
    ensures Locked(entries, Run(entries, author, events, st))
    ensures !Run(entries, author, events, st).stopped
    decreases |events|
  {
    if events != [] {
      LockedStays(entries, author, events[0].0, st, events[0].1);
      LockedNeverStops(entries, author, events[1..], Dispatch(entries, author, events[0].0, st, events[0].1).0);
    }
  }

  // ---------------------------------------------------------------------
  // The right arrow as intended

  /** The handlers with the right arrow's bound as evidently intended:
      nothing happens on the last page. */
  function PressIntended<T>(entries: seq<T>, st: ViewState<T>, a: Action): (r: (ViewState<T>, Response))
    requires WellFormed(st.children)
    ensures WellFormed(r.0.children)
    ensures 0 <= st.counter < |entries| ==> 0 <= r.0.counter < |entries|
  {
    if a == ArrowRight && st.counter >= |entries| - 1 then (st, Done) else Press(entries, st, a)
  }

  /** With the intended bound the counter stays on a real page, so the view
      can always be stopped, and the right arrow is a no-op on the last page. */
  lemma IntendedStaysOnPage<T>(entries: seq<T>, st: ViewState<T>, a: Action)
    requires Inv(entries, st) && st.counter < |entries|
    ensures var r := PressIntended(entries, st, a).0;
      Inv(entries, r) && r.counter < |entries|
    ensures var r := PressIntended(entries, st, a).0;
      Press(entries, r, StopButton).0.stopped
    ensures st.counter == |entries| - 1 ==> PressIntended(entries, st, ArrowRight) == (st, Done)
  {
    if a != ArrowRight || st.counter < |entries| - 1 {
      PressPreservesInv(entries, st, a);
    }
  }

  /** A three-page session driven as written: after moving to the last page
      one more right arrow goes past it, the sign reads "Page 4", and stop
      then raises `IndexError` with the buttons disabled and the view still
      running. */
  lemma ArrowRightOverrun()
    ensures
      var entries := ["A", "B", "C"];
      var owner, other := User(1), User(2);
      var s0 := InitialState<string>().(shown := Some(Message("A", InitialChildren())));
      var (s1, r1) := Dispatch(entries, owner, owner, s0, ArrowRight);
      var (s2, r2) := Dispatch(entries, owner, other, s1, ArrowRight);
      var (s3, r3) := Dispatch(entries, owner, owner, s2, FastForward);
      var (s4, r4) := Dispatch(entries, owner, owner, s3, ArrowRight);
      var (s5, r5) := Dispatch(entries, owner, owner, s4, StopButton);
      && s1.counter == 1 && s1.shown.value.page == "B" && r1 == Done
      && s2 == s1 && r2.Rejected?
      && s3.counter == 2 && s3.shown.value.page == "C"
      && s4.counter == 3 && r4 == IndexErrorSwallowed && s4.shown == s3.shown
      && s4.children[2].text == Some("Page 4")
      && r5 == IndexErrorRaised && !s5.stopped && s5.children[5].disabled
  {
    var entries := ["A", "B", "C"];
    assert PageLabel(3) == "Page 4";
  }

  /** The same session with the intended bound: the extra right arrow is a
      no-op and stop ends the session showing the last page. */
  lemma IntendedScenario()
    ensures
      var entries := ["A", "B", "C"];
      var s3 := InitialState<string>().(counter := 2, children := WithPageLabel(InitialChildren(), 2),
                                        shown := Some(Message("C", WithPageLabel(InitialChildren(), 2))));
      var (s4, r4) := PressIntended(entries, s3, ArrowRight);
      var (s5, r5) := PressIntended(entries, s4, StopButton);
      && s4 == s3 && r4 == Done
      && s5.stopped && r5 == Done && s5.shown.value.page == "C"
  {
  }

  // ---------------------------------------------------------------------
  // The view and the paginator as objects

  /** `PaginatorView`: the counter, the components and the rendered message
      change in place as the author presses buttons. */
  class PaginatorView<T> {
    const author: User
    const entries: seq<T>
    var counter: int
    var children: seq<Item>
    var stopped: bool
    var shown: Option<Message<T>>

    function State(): ViewState<T>
      reads this
    {
      ViewState(counter, children, stopped, shown)
    }

    constructor (author: User, entries: seq<T>)
      ensures this.author == author && this.entries == entries
      ensures State() == InitialState()
    {
      this.author := author;
      this.entries := entries;
      counter := 0;
      children := InitialChildren();
      stopped := false;
      shown := None;
    }

    /** `View.add_item`: a feature module appends a component. */
    method AddItem(item: Item)
      requires WellFormed(children)
      modifies this`children
      ensures children == old(children) + [item]
      ensures WellFormed(children)
    {
      children := children + [item];
    }

    method UpdateSign()
      requires WellFormed(children)
      modifies this`children
      ensures children == WithPageLabel(old(children), counter)
    {
      children := children[2 := children[2].(text := Some(PageLabel(counter)))];
    }

    method Edit(page: Option<T>, missing: Response) returns (r: Response)
      modifies this`shown
      ensures (State(), r) == EditTo(old(State()), page, missing)
    {
      match page
      case None =>
        r := missing;
      case Some(p) =>
        shown := Some(Message(p, children));
        r := Done;
    }

    method Rewind() returns (r: Response)
      requires WellFormed(children)
      modifies this
      ensures (State(), r) == Press(entries, old(State()), Action.Rewind)
    {
      counter := 0;
      UpdateSign();
      r := Edit(PyIndex(entries, 0), IndexErrorRaised);
    }

    method ArrowLeft() returns (r: Response)
      requires WellFormed(children)
      modifies this
      ensures (State(), r) == Press(entries, old(State()), Action.ArrowLeft)
    {
      if counter == 0 {
        return Done;
      }
      counter := counter - 1;
      UpdateSign();
      r := Edit(PyIndex(entries, counter), IndexErrorSwallowed);
    }

    method ArrowRight() returns (r: Response)
      requires WellFormed(children)
      modifies this
      ensures (State(), r) == Press(entries, old(State()), Action.ArrowRight)
    {
      if counter == |entries| {
        return Done;
      }
      counter := counter + 1;
      UpdateSign();
      r := Edit(PyIndex(entries, counter), IndexErrorSwallowed);
    }

    method FastForward() returns (r: Response)
      requires WellFormed(children)
      modifies this
      ensures (State(), r) == Press(entries, old(State()), Action.FastForward)
    {
      counter := |entries| - 1;
      UpdateSign();
      r := Edit(PyIndex(entries, -1), IndexErrorRaised);
    }

    method StopButton() returns (r: Response)
      requires WellFormed(children)
      modifies this
      ensures (State(), r) == Press(entries, old(State()), Action.StopButton)
    {
      var i := 0;
      while i < |children|
        invariant 0 <= i <= |children| == |old(children)|
        invariant forall k :: 0 <= k < i ==> children[k] == Disable(old(children)[k])
        invariant forall k :: i <= k < |children| ==> children[k] == old(children)[k]
        invariant counter == old(counter) && shown == old(shown) && stopped == old(stopped)
      {
        if children[i].Button? {
          children := children[i := Button(children[i].emoji, children[i].text, true)];
        }
        i := i + 1;
      }
      assert children == DisableButtons(old(children));
      var page := PyIndex(entries, counter);
      if page.None? {
        return IndexErrorRaised;
      }
      shown := Some(Message(page.value, children));
      stopped := true;
      r := Done;
    }

    /** One interaction event from `actor` on button `a`. */
    method Interact(actor: User, a: Action) returns (r: Response)
      requires WellFormed(children)
      modifies this
      ensures WellFormed(children)
      ensures (State(), r) == Dispatch(entries, author, actor, old(State()), a)
    {
      if stopped {
        return NotRouted;
      }
      if ShownDisabled(State(), a) {
        return Unclickable;
      }
      var gate := InteractionCheck(author, actor);
      if gate.Reject? {
        return Rejected(gate.notice);
      }
      match a
      case Rewind => r := Rewind();
      case ArrowLeft => r := ArrowLeft();
      case ArrowRight => r := ArrowRight();
      case FastForward => r := FastForward();
      case StopButton => r := StopButton();
    }
  }

  /** What `start` sent: the first message, as a reply or not. */
  datatype Sent<T> = Sent(message: Message<T>, asReply: bool)

  /** `Paginator`: owns the pages and the view, and sends the first page. */
  class Paginator<T> {
    const author: User
    const entries: seq<T>
    const view: PaginatorView<T>

    ghost predicate Valid()
      reads this
    {
      view.author == author && view.entries == entries
    }

    constructor (author: User, entries: seq<T>)
      ensures Valid() && this.author == author && this.entries == entries
      ensures fresh(view) && view.State() == InitialState()
    {
      this.author := author;
      this.entries := entries;
      view := new PaginatorView(author, entries);
    }

    /** `start`: send `entries[view.counter]` with the view attached; with no
        pages this raises `IndexError` (`None`). */
    method Start(reply: bool) returns (r: Option<Sent<T>>)
      requires Valid()
      modifies view`shown
      ensures r.Some? <==> PyIndex(entries, view.counter).Some?
      ensures r.Some? ==>
        && r.value == Sent(Message(PyIndex(entries, view.counter).value, view.children), reply)
        && view.entries == entries
        && view.shown == Some(r.value.message)
      ensures r.None? ==> view.shown == old(view.shown)
    {
      var page := PyIndex(entries, view.counter);
      if page.None? {
        return None;
      }
      var m := Message(page.value, view.children);
      view.shown := Some(m);
      r := Some(Sent(m, reply));
    }
  }

  /** A freshly built paginator over non-empty pages sends the first page and
      labels it "Page 1"; over no pages, `start` fails. */
  lemma StartSendsFirstPage<T>(entries: seq<T>)
    ensures PyIndex(entries, InitialState<T>().counter) == if entries == [] then None else Some(entries[0])
    ensures InitialState<T>().children[2].text == Some("Page 1")
  {
  }
}

=== FILE: wrappers.dfy ===
/** Wrappers used across the model: an optional value and a value-or-error
    result. */
module Wrappers {

  datatype Option<+T> = None | Some(value: T)

  datatype Result<+R, +E> = Success(value: R) | Failure(error: E)
}
